=== FILE: README.md ===
# TerminalLifeform, the per-epoch simulation core, in Dafny

TerminalLifeform is a terminal simulation of a population of artificial
organisms ("entities"). Each entity has an age, health and energy in
[0, 100], a status (`alive`, `thriving`, `struggling` or `dead`) and a
bundle of numeric parameters. The entities share one environment: a table
of factors such as resource availability, temperature and pollution.

A run is a sequence of epochs. Each epoch does the following, in order:

1. The environment drifts with the elapsed fraction of the run.
2. At most one random event strikes: a resource spike, a disease outbreak
   or a heatwave.
3. A predator may cull the population.
4. Every live entity ages, and its energy and health move by the formulas
   of `src/entity_utils.py` and are clamped.
5. Live entities hit up to three others.
6. Every entity is reclassified.
7. The dead are removed.
8. Thriving entities old enough may have one mutated offspring, which joins
   the list after the scan.

The run stops after `total_time_steps` epochs, or as soon as the population
is empty.

This project models that core and proves properties of it. It is organised
like the source:

| module (file) | models |
|---|---|
| `Numbers` (numbers.dfy) | `min`, `max`, `abs`, the inline clamp, `int(x)` and `round(x)` |
| `Draws` (draws.dfy) | the global `random` module, as an explicit stream of draws |
| `Entities` (entity.dfy) | `src/entity.py`: the `Entity` class, the parameter bundle, `update_status` |
| `Vitals` (vitals.dfy) | `src/entity_utils.py`: the energy and health change formulas |
| `Environment` (environment.dfy) | the environment factors, their drift, the events' effects, the interaction modifier, the predator's kill count |
| `Mutation` (mutation.dfy) | the mutation table of `_apply_mutation` and the value of one mutated parameter |
| `Population` (population.dfy) | the list comprehensions over the population |
| `Engine` (simulation.dfy) | the class `Simulation` of `src/main.py` |

The main modelling choices are these:

- **Classes for state.** `Entity` and `Simulation` are Dafny classes whose
  methods update their fields in place, as the source does.
- **Relation predicates.** The effect of a phase of an epoch on one entity
  is a relation between its state before and after: `Afflicted`,
  `Sickened`, `Killed`, `Bruised`, `Processed` and `Lived`. Lemmas chain
  these relations across phases.
- **Randomness.** Every random draw comes from an `Rng` object holding an
  arbitrary stream of numbers in [0, 1). Every property therefore holds for
  every possible sequence of draws. No distribution is modelled.
- **Keys as enumerations.** Parameter and factor names are enumerations
  (`Param`, `Factor`). Bundles and the environment are maps keyed by them.
- **Numbers.** They are `real`. Python's `int()` truncates toward zero and
  `round()` rounds half to even; both are written out in `Numbers`.
- **Identity.** An entity's short uuid becomes object identity, so the
  partner filter `e.id != entity1.id` is reference inequality.

`src/main.py` imports `calc_energy_change` and `calc_health_change`, but
`src/entity_utils.py` defines `calculate_energy_change` and
`calculate_health_change`. The model takes the latter as the functions
called.

The predator gate is modelled as written: it fires when a draw is
*greater* than `predator_chance` (src/main.py:109). With the default
`predator_chance` between 0.1 and 0.3, the predator therefore fires on most
epochs once the population exceeds `predator_threshold`.

The default `reproduction_chance` is 1.3 (src/params.py:42). A thriving
default entity old enough therefore always reproduces.
`Engine.Simulation.ChooseParents` and `Engine.Simulation.HandleReproduction`
state this.

## Model

| member | source | states |
|---|---|---|
| Numbers.Clamp | src/main.py:157-159 | `max(lo, min(hi, x))` lies in [lo, hi], is x when x is inside, and is the nearer bound otherwise |
| Numbers.Truncate | src/main.py:111-113 | `int(x)` is the floor for non-negative x and rounds toward zero for negative x |
| Numbers.RoundHalfEven | src/main.py:249 | `round(x)` is within 0.5 of x, is even on a tie, and is x itself when x is an integer |
| Numbers.ClampKeepsInteger | src/main.py:249-254 | clamping an integer between integer bounds gives an integer, so a mutated `max_age` stays integral |
| Draws.Rng.Random | src/main.py:74 | `random.random()` returns the next draw, in [0, 1), and consumes it |
| Draws.Rng.Uniform | src/main.py:90 | `random.uniform(a, b)` is `a + (b - a) * random()` and lies between a and b |
| Draws.Rng.Below | src/main.py:75-77 | the index `random.choice` uses is below the list length |
| Draws.Rng.Sample | src/main.py:88 | `random.sample(pool, k)` returns k elements of the pool, at distinct positions, so distinct when the pool is |
| Entities.DefaultParameters | src/params.py:29-46 | the default bundle holds every parameter the simulation reads, with `max_age` 99 and full initial vitals |
| Entities.MergeParameters | src/entity.py:41-45 | the bundle is the defaults updated by the overrides: every supplied key overrides, every other default key is kept, no key is lost |
| Entities.MergeNothing | src/entity.py:44-45 | without overrides the bundle is exactly the defaults |
| Entities.Classify | src/entity.py:58-73 | the status is dead exactly when health is at most 0 or the age reaches `max_age`; thriving only with health and energy at their thriving thresholds; alive only with both above their struggling thresholds |
| Entities.ClassifyCases | src/entity.py:58-73 | each status holds exactly under its own condition, in the priority order dead, thriving, struggling, alive |
| Entities.ThrivingOutranksStruggling | src/entity.py:62-71 | a live entity meeting both the thriving and the struggling thresholds is thriving |
| Entities.Reclassified | src/entity.py:54-73 | `update_status` keeps the age, sets the classified status, zeroes both vitals exactly on the dead branch (health ≤ 0 or age ≥ max_age) and keeps them otherwise |
| Entities.ReclassifiedIdempotent | src/entity.py:54-73 | reclassifying twice is reclassifying once |
| Entities.DeadStaysDead | src/entity.py:58-61 | a dead entity stays dead with zero vitals on every later reclassification, at any later age |
| Entities.Entity.constructor | src/entity.py:25-48 | a new entity has age 0, status alive, the merged bundle, and health and energy equal to its `initial_health` and `initial_energy` |
| Entities.Entity.IsAlive | src/entity.py:50-52 | `is_alive()` holds exactly when the status is not dead; a valid entity that is not alive has no health or energy left |
| Entities.Entity.UpdateStatus | src/entity.py:54-73 | the new state is `Reclassified` of the old one, the parameters are untouched, the dead-implies-zero-vitals invariant holds, and `is_alive()` afterwards iff the old health was positive and the age below `max_age` |
| Environment.Lookup | src/entity_utils.py:16 | `env.get(key, default)` is the factor when present and the default otherwise |
| Environment.DefaultFactors | src/params.py:4-15 | the default factors hold every factor the simulation subscripts, with the `predator_chance` drawn at load time |
| Environment.OverridesKeepFactorKeys | src/main.py:38-41 | updating the defaults with the run's overrides never removes a factor |
| Environment.Progress | src/main.py:62 | the elapsed fraction `current_time / total_time_steps` lies in [0, 1] during the run |
| Environment.DriftedResources | src/main.py:61-63 | drifted resource availability lies in [0.1, 1] and is `1 - f/2` until the floor |
| Environment.DriftedTemperature | src/main.py:65-67 | drifted temperature lies in [20, 30] during the run and is 25 at mid-run |
| Environment.DriftedPollution | src/main.py:69-71 | drifted pollution lies in [0, 0.8] and is `0.3 f` during the run |
| Environment.Drifted | src/main.py:60-71 | the drift overwrites exactly the three drifting factors, keeps every other one, and leaves resources in [0.1, 1], pollution in [0, 0.8] and temperature in [20, 30] |
| Environment.SpikedResources | src/main.py:78-81 | a resource spike adds 0.2, never exceeds 1, never lowers availability at most 1, and keeps it at least 0.1 |
| Environment.HeatwaveTemperature | src/main.py:95-99 | a heatwave never pushes temperature above 45, never lowers a temperature at most 45, and adds the full rise below the cap |
| Environment.InteractionModifier | src/main.py:176-182 | the interaction modifier always lies in [0.1, 1], being the raw scarcity-plus-crowding value clamped |
| Environment.PredatorKillCount | src/main.py:111-116 | the predator kills at least one entity, and the truncated impact share when that is at least one |
| Vitals.ScarcityPenalty | src/entity_utils.py:16-20 | the scarcity surcharge is non-negative with resources at most 1, and zero with full resources |
| Vitals.SicknessPenalty | src/entity_utils.py:22-24 | the sickness surcharge is non-negative, and zero at health 50 or more |
| Vitals.EnergyChange | src/entity_utils.py:1-26 | the energy change is minus metabolism plus the scarcity and sickness surcharges; it is at most 0 for a non-negative metabolism with resources at most 1, and exactly minus metabolism with full resources and health at least 50 |
| Vitals.EnergyHealthTerm | src/entity_utils.py:43-51 | the energy-driven health term is a gain above 50 energy, a loss at or below 50, and zero at 50 |
| Vitals.TemperaturePenalty | src/entity_utils.py:57-61 | the temperature penalty is non-negative for resilience at most 1, and zero inside [10, 35] or at full resilience |
| Vitals.PollutionPenalty | src/entity_utils.py:63-64 | the pollution penalty is non-negative for resilience at most 1, and zero at pollution 0.1 or less or at full resilience |
| Vitals.HealthChange | src/entity_utils.py:29-66 | the health change is the energy term minus both penalties; it never exceeds the energy term, and equals it at full resilience or when temperature and pollution are missing |
| Mutation.MutableParametersWellFormed | src/main.py:233-239 | the mutation table lists each of the five mutable parameters exactly once, with sound bounds |
| Mutation.MutatedValue | src/main.py:243-254 | a mutated value lies within its bounds, is an integer for `max_age`, is the unrounded new value when that is in bounds, and is unchanged for a zero factor |
| Mutation.MutatedWithinBounds | src/main.py:243-254 | a parameter kept or mutated by a factor of magnitude at most `mutation_strength` is kept, or lies within its bounds, integral for `max_age` |
| Mutation.InheritedAggression | src/main.py:274-282 | an offspring's aggression is its parent's or lies in [0, 1], so it is non-negative when the parent's is |
| Mutation.OffspringInherits | src/main.py:274-282 | the offspring's bundle, merged over the defaults, keeps every parent key, copies every non-mutable parameter other than the initial vitals, and keeps each mutable one or moves it by a factor of magnitude at most `mutation_strength` |
| Population.Select | src/main.py:333 | a status filter keeps exactly the entities whose status passes, and no repetitions when there were none |
| Population.SelectWider | src/main.py:119-127 | a wider status test never selects fewer entities |
| Population.Living | src/main.py:166 | the live list holds exactly the population's entities that are not dead |
| Population.StrugglingOnes | src/main.py:119-121 | the struggling list holds exactly the struggling entities, and is no longer than the live list |
| Population.Others | src/main.py:190 | the potential targets are everyone but the entity itself: exactly one fewer when the list has no repetitions and holds it |
| Population.CountStatus | src/main.py:340-341 | a status count is at most the population, and zero exactly when no entity has that status |
| Population.SelectDisjoint | src/main.py:339-341 | disjoint status tests select at most the whole population together |
| Population.CountsWithinPopulation | src/main.py:339-341 | the thriving and struggling counts together never exceed the population |
| Engine.Processed | src/main.py:147-160 | `_process_entity` leaves a dead entity untouched; a live one ages by exactly one, gets the clamped energy, then health clamped and computed from the new energy, dies exactly when that health is 0 or its age reaches `max_age`, and otherwise takes the status `update_status` classifies |
| Engine.DriftThenEvent | src/main.py:60-99 | after the drift and any event, resources lie in [0.1, 1], pollution in [0, 0.8], temperature at most 45, and no other factor changes |
| Engine.Damage | src/main.py:199-203 | interaction damage is non-negative for non-negative aggression, strength and modifier, and zero with no strength or aggression |
| Engine.Hit | src/main.py:204-207 | a hit leaves health and energy non-negative, never raises them for non-negative damage, and takes half as much energy as health when neither floor is reached |
| Engine.HitBack | src/main.py:195-216 | the vitals of an entity after each live partner in turn hits it back stay non-negative, and never rise when every aggression, the strength and the modifier are non-negative |
| Engine.SicknessThenPredator | src/main.py:86-134 | an outbreak followed by the predator keeps every entity's age, leaves dead entities untouched, and can only lower health or kill |
| Engine.SurvivorAged | src/main.py:318-330 | after processing, interactions and reclassification a dead entity stays dead, and a survivor was alive, aged by exactly one and has positive health, within [0, 100] when interactions are harmless |
| Engine.AfflictedThenLived | src/main.py:305-330 | the environment update does not break that: over the whole phase a survivor was alive before and aged by exactly one |
| Engine.Simulation.NewEntities | src/main.py:43-45 | `initial_entities` distinct new entities, each with the default bundle, age 0, alive and full vitals |
| Engine.Simulation.constructor | src/main.py:33-47 | with the defaults 5 entities, 1000 epochs and no overrides, the environment is the defaults updated by the overrides, the population holds `initial_entities` default entities, the counter equals their number, and time is 0 |
| Engine.Simulation.AddEntity | src/main.py:49-53 | the entity is appended and counted, and nothing else changes |
| Engine.Simulation.ProcessEntity | src/main.py:147-160 | the entity's new state is `Processed` of its old state, and it stays valid |
| Engine.Simulation.UpdateEnvironment | src/main.py:55-145 | the factors stay within their bounds with only the drifting ones changed, and every entity can only be afflicted: age kept, dead ones untouched, health lowered or killed |
| Engine.Simulation.Strike | src/main.py:73-145 | the event and the predator together apply the event's factor change and can only afflict an entity |
| Engine.Simulation.Prey | src/main.py:105-145 | the predator leaves each entity as it was or kills a live one |
| Engine.Simulation.ApplyRandomEvent | src/main.py:73-103 | an event happens iff the draw is below `event_chance`; only the event's factor changes, by its formula; only an outbreak has victims, min(population, 3) distinct ones, each live one losing 10 to 30 health floored at 0, and nobody else changes |
| Engine.Simulation.SpikeResources | src/main.py:78-81 | a resource spike changes only resource availability, by the capped 0.2 increase |
| Engine.Simulation.RaiseTemperature | src/main.py:95-99 | a heatwave raises temperature by `uniform(5, 10)` for its draw, capped at 45, and changes no other factor |
| Engine.Simulation.SpreadDisease | src/main.py:86-90 | an outbreak picks min(population, 3) distinct entities; each live one among them loses 10 to 30 health, floored at 0, and nothing else; dead victims and everybody else are unchanged |
| Engine.Simulation.Sicken | src/main.py:89-90 | a live victim's health becomes `max(0, health - uniform(10, 30))` for its draw; a dead one is unchanged |
| Engine.Simulation.Kill | src/main.py:132-134 | every victim ends dead with zero vitals and its age kept; every other entity is unchanged |
| Engine.Simulation.ChoosePrey | src/main.py:118-128 | the victims are n distinct struggling entities when there are enough, otherwise min(n, live count) distinct live ones |
| Engine.Simulation.PredatorCull | src/main.py:105-134 | the cull fires iff the live count exceeds `predator_threshold` and the draw exceeds `predator_chance`; it then kills min(kill count, live count) distinct live entities, only struggling ones when there are enough; nobody else changes |
| Engine.Simulation.ProcessEntities | src/main.py:317-319 | every entity's new state is `Processed` of its old one |
| Engine.Simulation.ReclassifyEntities | src/main.py:324-326 | every entity's new state is `Reclassified` of its old one |
| Engine.Simulation.ChoosePartners | src/main.py:187-195 | each live entity gets min(num_alive - 1, 3) distinct live partners, never itself |
| Engine.Simulation.Interact | src/main.py:197-216 | when both are alive each is hit with the other's aggression, the second first; otherwise neither changes; age and status never change |
| Engine.Simulation.Engage | src/main.py:195-216 | when the entity is alive, each live partner ends at `Hit` of its old vitals with the entity's aggression, and the entity ends at `HitBack` of its old vitals over the partners in order; nobody else changes, no age or status changes, and nothing changes when the entity is dead |
| Engine.Simulation.Meet | src/main.py:195-216 | the exact hits of `Engage` on the partners and on the entity, the rest unchanged, and every entity `Bruised`: age and status kept, the dead untouched, vitals non-negative and not raised when interactions are harmless |
| Engine.Simulation.HandleInteractions | src/main.py:162-222 | with fewer than two live entities nothing changes and nothing is drawn; otherwise every entity is only bruised |
| Engine.Simulation.MutateParameter | src/main.py:241-256 | when the first draw is below the rate, the parameter becomes `MutatedValue` of it with the factor `uniform(-strength, strength)` of the second draw, otherwise the bundle is unchanged; every other key is unchanged |
| Engine.Simulation.ApplyMutation | src/main.py:224-260 | the result is a mutation of the input: same keys, only the five mutable parameters changed, each kept or set to `MutatedValue` of it for some factor in [-`mutation_strength`, `mutation_strength`]; a non-positive rate changes nothing |
| Engine.Simulation.Spawn | src/main.py:273-282 | the offspring is new, aged 0, alive, with initial vitals in [80, 100] equal to its bundle's, and inherits its parent's bundle under the environment's `mutation_strength` |
| Engine.Simulation.Reproduce | src/main.py:267-283 | an entity has an offspring iff it is thriving, old enough, and its draw is below its `reproduction_chance`; the offspring is a newborn of it |
| Engine.Simulation.ChooseParents | src/main.py:266-284 | the parents are distinct thriving entities old enough, each with one newborn; every such entity with `reproduction_chance` at least 1 is a parent |
| Engine.Simulation.PayCost | src/main.py:285 | each parent loses exactly 3 health, unclamped; nothing else changes |
| Engine.Simulation.HandleReproduction | src/main.py:262-288 | the offspring are appended after the scan and the counter grows by their number; parents were thriving and old enough and lose 3 health; no other entity or field changes |
| Engine.Simulation.Live | src/main.py:317-330 | processing, interactions and reclassification only age survivors by one and keep the dead dead |
| Engine.Simulation.Advance | src/main.py:305-330 | after the environment update, processing, interactions and reclassification, the dead stay dead and every survivor aged by exactly one with positive health |
| Engine.Simulation.RemoveDead | src/main.py:332-333 | the population becomes its live entities, in order |
| Engine.Simulation.Survive | src/main.py:305-333 | the survivors are exactly the old entities that are not dead, each alive before and aged by one |
| Engine.Simulation.RunEpoch | src/main.py:305-336 | the population becomes the survivors followed by the newborns, and the counter grows by the number of births; the parents are distinct thriving survivors old enough, each with one newborn, and every such survivor with `reproduction_chance` at least 1 is one |
| Engine.Simulation.Epoch | src/main.py:299-341 | the clock is the epoch number; the population becomes the survivors followed by the newborns, the survivors being exactly the old entities not dead, each aged by one, and the newborns fresh at age 0 and alive; the total grows by the number of newborns; no entity in the new population is dead; the report is the counts of the new population |
| Engine.Simulation.Epochs | src/main.py:297-351 | the loop runs at most `total_time_steps` epochs and stops early only on an empty population; it records one population report per epoch, every one but the last with someone alive, the last being the final population's |
| Engine.Simulation.RunSimulation | src/main.py:290-357 | the run does at most `total_time_steps` epochs, stops as soon as the population is empty and only then early, and ends with no dead entity; the summary is the last report, its counts those of the final population and within it |

## Left out

- Display and timing: the logger calls, `print`, `tqdm`, `time.sleep`, the colours, and the `__main__` wiring (src/main.py:360-376).
- The statistics trackers (`birth_tracker`, `death_tracker`, `disaster_tracker`, `mutation_tracker`, `update_totals`): they only report. `RunSimulation` returns the arguments `update_totals` would get.
- `validate_entity_params` and `logging_config`: not part of this model, their source not being available.
- An entity's generated name (Faker) and short uuid: identity is object identity.
- Probability distributions and floating-point rounding. Numbers are exact reals, and each draw is an arbitrary number in [0, 1).
- Draws.Rng.Below: states only that the index is in range. It takes one draw, whereas CPython's `random.choice` consumes random bits.
- Draws.Rng.Sample: states size, membership and distinctness only. The order and the draws used differ from CPython's `random.sample`.
- Parameter and factor names are closed enumerations, so an override with a key outside the tables cannot be expressed. The two unused parameters, `foraging_efficiency` and `cooperation`, are kept.
- Engine.Simulation.constructor: builds the initial population in one step instead of through `add_entity`, with the same result.
- Engine.Simulation.AddEntity: requires the entity not to be in the population already. Adding the same object twice would alias it, which the model does not represent.
- Engine.Simulation.HandleReproduction: applies the parents' health cost and the counter increase after the scan, not interleaved with it. No other step of the scan reads them, so the result is the same.
- The `continue` for an empty target list (src/main.py:192-193) cannot be reached with two or more live entities, and is omitted.
- Engine.Simulation.UpdateEnvironment: states bounds on the factors and a relation on each entity, not the exact values. The exact drift is stated by `Environment.Drifted` with `DriftedResources`, `DriftedTemperature` and `DriftedPollution`; the exact effects of the random event on the factors by `ApplyRandomEvent`; the outbreak's health loss by `SpreadDisease` and `Sicken` (as a band, with the exact value per draw in `Sicken`); and the kills by `PredatorCull`.
- Engine.Simulation.HandleInteractions: states bounds (`Bruised`) rather than the exact vitals after the sequence of hits. The exact effect of one entity's round is stated by `Engage` and `Meet`, and that of one interaction by `Interact`.
- Engine.Simulation.Advance: states what survives, its ageing and its bounds, not the exact final vitals.
- Engine.Simulation.RunSimulation: states the invariants of the run and the per-epoch reports, not the final population as a function of the draws. When `total_time_steps` is 0 the loop body never runs, so the source's `update_totals` call (src/main.py:355-357) fails with an `UnboundLocalError` on `struggling_count`; the model returns no summary (`None`) instead.
- Engine.Simulation.Prey: states only that each entity is unchanged or killed. The gate, the kill count and the preference for struggling entities are stated by `PredatorCull`, which it calls.
- Engine.Simulation.Strike: states the event's factor change and that each entity is only afflicted (`Afflicted`), not which entities the outbreak and the predator hit. Those are stated by `ApplyRandomEvent` and `PredatorCull`.
- Engine.Simulation.Live: states only the relation `Lived` on each entity: the dead stay dead, survivors age by one with positive health, within bounds when interactions are harmless. The exact effects of the three phases are stated by `ProcessEntities` (`Processed`), `HandleInteractions` (`Bruised`) and `ReclassifyEntities` (`Reclassified`).
- Engine.Simulation.RunEpoch: does not restate the parents' 3-health cost, which `HandleReproduction` and `PayCost` state, nor the survivors' vitals, which `Advance` bounds.
- Engine.Simulation.Epoch: passes up the population transition of `RunEpoch` but not its statements about the parents and their newborns (`Newborn`), which `RunEpoch` states.
- Engine.Simulation.PredatorCull: computes the struggling list before the gate rather than inside it. This changes no state and consumes no draw.
- The disease outbreak samples from the whole population, including any dead entities, as the source does.
- A parent's health after the reproduction cost is not clamped or reclassified, as in the source, so it may go negative.

=== FILE: draws.dfy ===
/**
 * The simulation's single source of randomness, made explicit.
 *
 * The source calls Python's global `random` module (`random()`, `uniform`,
 * `choice`, `sample`). Here every draw comes from an `Rng` object holding an
 * arbitrary infinite stream of numbers in [0, 1) and a read position; each
 * primitive consumes draws from the stream in order. No distribution is
 * modelled: every property proved about a caller holds for every stream.
 */
module Draws {
  import opened Numbers

  /**
   * The element at position `i`. `Distinct` is stated with it rather than
   * with `s[i]`, so that its pairwise quantifier is only used where a proof
   * asks for it (through the lemmas below).
   */
  function At<T>(s: seq<T>, i: nat): T
    requires i < |s|
  {
    s[i]
  }

  /** No element occurs twice. */
  predicate Distinct<T(==)>(s: seq<T>)
  {
    forall i, j :: 0 <= i < j < |s| ==> At(s, i) != At(s, j)
  }

  /** A list is without repetitions when any two positions hold different elements. */
  lemma DistinctIntro<T>(s: seq<T>)
    requires forall i, j :: 0 <= i < j < |s| ==> s[i] != s[j]
    ensures Distinct(s)
  {
  }

  /** In a list without repetitions, the element at `i` occurs nowhere else. */
  lemma DistinctElsewhere<T>(s: seq<T>, i: int)
    requires Distinct(s) && 0 <= i < |s|
    ensures forall j :: 0 <= j < |s| && j != i ==> s[j] != s[i]
    ensures s[i] !in s[..i] && s[i] !in s[i + 1..]
  {
    forall j | 0 <= j < |s| && j != i
      ensures s[j] != s[i]
    {
      if j < i {
        assert At(s, j) != At(s, i);
      } else {
        assert At(s, i) != At(s, j);
      }
    }
  }

  /** A list without repetitions: any two positions hold different elements. */
  lemma DistinctPairs<T>(s: seq<T>)
    requires Distinct(s)
    ensures forall i, j :: 0 <= i < j < |s| ==> s[i] != s[j]
  {
    forall i, j | 0 <= i < j < |s|
      ensures s[i] != s[j]
    {
      assert At(s, i) != At(s, j);
    }
  }

  /** Without repetitions, the head of a list is not in its tail, which has none either. */
  lemma DistinctTail<T>(s: seq<T>)
    requires Distinct(s) && |s| > 0
    ensures Distinct(s[1..]) && s[0] !in s[1..]
  {
    DistinctPairs(s);
    DistinctIntro(s[1..]);
  }

  /** A new element in front of a list without repetitions keeps it so. */
  lemma DistinctCons<T>(x: T, s: seq<T>)
    requires Distinct(s) && x !in s
    ensures Distinct([x] + s)
  {
    DistinctPairs(s);
    DistinctIntro([x] + s);
  }

  /** Appending a new element keeps a list without repetitions. */
  lemma DistinctAppend<T>(s: seq<T>, x: T)
    requires Distinct(s) && x !in s
    ensures Distinct(s + [x])
  {
    DistinctPairs(s);
    assert forall i :: 0 <= i < |s| ==> (s + [x])[i] == s[i];
    DistinctIntro(s + [x]);
  }

  /** Two lists without repetitions and without common elements join into one. */
  lemma DistinctConcat<T>(a: seq<T>, b: seq<T>)
    requires Distinct(a) && Distinct(b) && forall x :: x in b ==> x !in a
    ensures Distinct(a + b)
  {
    DistinctPairs(a);
    DistinctPairs(b);
    forall i, j | 0 <= i < j < |a + b|
      ensures (a + b)[i] != (a + b)[j]
    {
      if j >= |a| && i < |a| {
        assert (a + b)[j] in b;
      }
    }
    DistinctIntro(a + b);
  }

  /** The elements of `pool` at the positions `idx`, in the order of `idx`. */
  function Pick<T>(pool: seq<T>, idx: seq<nat>): (r: seq<T>)
    requires forall i :: 0 <= i < |idx| ==> idx[i] < |pool|
    ensures |r| == |idx|
    ensures forall i :: 0 <= i < |idx| ==> r[i] == pool[idx[i]]
    ensures forall x :: x in r ==> x in pool
    ensures Distinct(pool) && Distinct(idx) ==> Distinct(r)
  {
    var r := seq(|idx|, i requires 0 <= i < |idx| => pool[idx[i]]);
    assert Distinct(pool) && Distinct(idx) ==> Distinct(r) by {
      if Distinct(pool) && Distinct(idx) {
        DistinctPairs(pool);
        DistinctPairs(idx);
        DistinctIntro(r);
      }
    }
    r
  }

  /** A fraction of a non-negative quantity lies between zero and the whole. */
  lemma ScaleWithin(c: real, u: real)
    requires c >= 0.0 && 0.0 <= u <= 1.0
    ensures 0.0 <= c * u <= c
  {
    assert c * (1.0 - u) >= 0.0;
  }

  /** The value `random.uniform(a, b)` returns for the draw `u`. */
  function UniformValue(a: real, b: real, u: real): real
  {
    a + (b - a) * u
  }

  class Rng {
    /** The draws, one per position; `random.random()` returns the next one. */
    const stream: nat -> real
    /** How many draws have been consumed. */
    var pos: nat

    ghost predicate Valid()
    {
      forall i: nat :: 0.0 <= stream(i) < 1.0
    }

    constructor (stream: nat -> real)
      requires forall i: nat :: 0.0 <= stream(i) < 1.0
      ensures Valid() && this.stream == stream && pos == 0
    {
      this.stream := stream;
      pos := 0;
    }

    /** `random.random()`. */
    method Random() returns (r: real)
      requires Valid()
      modifies this
      ensures r == stream(old(pos)) && pos == old(pos) + 1
      ensures 0.0 <= r < 1.0
    {
      r := stream(pos);
      pos := pos + 1;
    }

    /** `random.uniform(a, b)`, which is `a + (b - a) * random()`. */
    method Uniform(a: real, b: real) returns (r: real)
      requires Valid()
      modifies this
      ensures r == UniformValue(a, b, stream(old(pos))) && pos == old(pos) + 1
      ensures Min(a, b) <= r <= Max(a, b)
    {
      var u := Random();
      r := a + (b - a) * u;
      if a <= b {
        ScaleWithin(b - a, u);
        assert a <= r <= b;
      } else {
        ScaleWithin(a - b, u);
        assert (b - a) * u == -((a - b) * u);
        assert b <= r <= a;
      }
    }

    /** A position below `n`, one draw per call (the index `random.choice` uses). */
    method Below(n: nat) returns (k: nat)
      requires Valid() && n > 0
      modifies this
      ensures k < n && pos == old(pos) + 1
    {
      var u := Random();
      var scaled := u * n as real;
      assert 0.0 <= scaled < n as real by {
        assert u * n as real < 1.0 * n as real;
      }
      k := scaled.Floor;
    }

    /**
     * `random.sample(pool, k)`: `k` elements of `pool` at distinct positions,
     * drawn by a partial Fisher-Yates shuffle of the positions.
     */
    method Sample<T>(pool: seq<T>, k: nat) returns (r: seq<T>)
      requires Valid() && k <= |pool|
      modifies this
      ensures |r| == k
      ensures forall x :: x in r ==> x in pool
      ensures Distinct(pool) ==> Distinct(r)
    {
      var n := |pool|;
      var order: seq<nat> := seq(n, i requires 0 <= i < n => i);
      var i := 0;
      while i < k
        invariant 0 <= i <= k && |order| == n
        invariant forall j :: 0 <= j < n ==> order[j] < n
        invariant forall a, b :: 0 <= a < b < n ==> order[a] != order[b]
      {
        var off := Below(n - i);
        var j := i + off;
        order := order[i := order[j]][j := order[i]];
        i := i + 1;
      }
      DistinctIntro(order[..k]);
      r := Pick(pool, order[..k]);
    }
  }
}

=== FILE: entity.dfy ===
/**
 * One simulated organism (src/entity.py): its vitals, its status and the
 * parameter bundle it was created with.
 *
 * The bundle is a dictionary from parameter name to number, as in the
 * source, the names being those of the `entity_params` table of
 * src/params.py, which also gives the defaults. Identity (the source's short uuid) is object identity here,
 * and the generated display name is not modelled.
 */
module Entities {

  datatype Status = Alive | Thriving | Struggling | Dead

  /**
   * The parameter names of the `entity_params` table, the keys of every
   * bundle; the simulation reads all but the last two.
   */
  datatype Param =
    | MaxAge | InitialHealth | InitialEnergy | MetabolismRate
    | HealthRecoveryRate | HealthDecayRate | Resilience | ForagingEfficiency
    | ThrivingHealth | ThrivingEnergy | StrugglingHealth | StrugglingEnergy
    | ReproductionChance | MinReproductionAge | Aggression | Cooperation

  /** Every parameter the simulation looks up in an entity's bundle. */
  predicate HasRequiredKeys(p: map<Param, real>)
  {
    && MaxAge in p && InitialHealth in p && InitialEnergy in p
    && MetabolismRate in p && HealthRecoveryRate in p && HealthDecayRate in p
    && Resilience in p && ThrivingHealth in p && ThrivingEnergy in p
    && StrugglingHealth in p && StrugglingEnergy in p
    && ReproductionChance in p && MinReproductionAge in p && Aggression in p
  }

  /** The default bundle every entity starts from (`entity_params`). */
  function DefaultParameters(): (p: map<Param, real>)
    ensures HasRequiredKeys(p)
    ensures p[MaxAge] == 99.0 && p[InitialHealth] == 100.0 && p[InitialEnergy] == 100.0
  {
    map[
      MaxAge := 99.0,
      InitialHealth := 100.0,
      InitialEnergy := 100.0,
      MetabolismRate := 0.3,
      HealthRecoveryRate := 1.15,
      HealthDecayRate := 1.35,
      Resilience := 0.18,
      ForagingEfficiency := 0.35,
      ThrivingHealth := 65.0,
      ThrivingEnergy := 60.0,
      StrugglingHealth := 33.0,
      StrugglingEnergy := 22.0,
      ReproductionChance := 1.3,
      MinReproductionAge := 13.0,
      Aggression := 0.3,
      Cooperation := 0.1
    ]
  }

  /**
   * The bundle of a new entity: the defaults, updated with the caller's
   * overrides (a copy of the defaults followed by `dict.update`).
   */
  function MergeParameters(overrides: map<Param, real>): (p: map<Param, real>)
    ensures p.Keys == DefaultParameters().Keys + overrides.Keys
    ensures forall k :: k in overrides ==> p[k] == overrides[k]
    ensures forall k :: k in DefaultParameters() && k !in overrides ==> p[k] == DefaultParameters()[k]
    ensures HasRequiredKeys(p)
  {
    DefaultParameters() + overrides
  }

  /** Without overrides an entity gets exactly the defaults. */
  lemma MergeNothing()
    ensures MergeParameters(map[]) == DefaultParameters()
  {
    assert MergeParameters(map[]).Keys == DefaultParameters().Keys;
  }

  /**
   * The status `update_status` assigns, by priority: dead, then thriving,
   * then struggling, otherwise alive.
   */
  function Classify(health: real, energy: real, age: nat, p: map<Param, real>): (r: Status)
    requires HasRequiredKeys(p)
    ensures r == Dead <==> health <= 0.0 || age as real >= p[MaxAge]
    ensures r == Thriving ==> health >= p[ThrivingHealth] && energy >= p[ThrivingEnergy]
    ensures r == Alive ==> p[StrugglingHealth] < health && p[StrugglingEnergy] < energy
  {
    if health <= 0.0 || age as real >= p[MaxAge] then Dead
    else if health >= p[ThrivingHealth] && energy >= p[ThrivingEnergy] then Thriving
    else if health <= p[StrugglingHealth] || energy <= p[StrugglingEnergy] then Struggling
    else Alive
  }

  /** Each status holds exactly under its own condition, in priority order. */
  lemma ClassifyCases(health: real, energy: real, age: nat, p: map<Param, real>)
    requires HasRequiredKeys(p)
    ensures var s := Classify(health, energy, age, p);
      var dead := health <= 0.0 || age as real >= p[MaxAge];
      var thriving := health >= p[ThrivingHealth] && energy >= p[ThrivingEnergy];
      var struggling := health <= p[StrugglingHealth] || energy <= p[StrugglingEnergy];
      && (s == Dead <==> dead)
      && (s == Thriving <==> !dead && thriving)
      && (s == Struggling <==> !dead && !thriving && struggling)
      && (s == Alive <==> !dead && !thriving && !struggling)
  {
  }

  /** Thriving outranks struggling when both sets of thresholds are met. */
  lemma ThrivingOutranksStruggling(health: real, energy: real, age: nat, p: map<Param, real>)
    requires HasRequiredKeys(p)
    requires health > 0.0 && (age as real) < p[MaxAge]
    requires health >= p[ThrivingHealth] && energy >= p[ThrivingEnergy]
    requires health <= p[StrugglingHealth] || energy <= p[StrugglingEnergy]
    ensures Classify(health, energy, age, p) == Thriving
  {
  }

  /** The mutable part of an entity. */
  datatype EntityState = EntityState(age: nat, health: real, energy: real, status: Status)

  /**
   * What `update_status` does to an entity: it recomputes the status and,
   * on the dead branch only, zeroes both vitals.
   */
  function Reclassified(s: EntityState, p: map<Param, real>): (r: EntityState)
    requires HasRequiredKeys(p)
    ensures r.age == s.age
    ensures r.status == Classify(s.health, s.energy, s.age, p)
    ensures r.status == Dead <==> s.health <= 0.0 || s.age as real >= p[MaxAge]
    ensures r.status == Dead ==> r.health == 0.0 && r.energy == 0.0
    ensures r.status != Dead ==> r.health == s.health && r.energy == s.energy
  {
    var status := Classify(s.health, s.energy, s.age, p);
    if status == Dead then EntityState(s.age, 0.0, 0.0, Dead)
    else EntityState(s.age, s.health, s.energy, status)
  }

  /** Reclassifying twice is reclassifying once. */
  lemma ReclassifiedIdempotent(s: EntityState, p: map<Param, real>)
    requires HasRequiredKeys(p)
    ensures Reclassified(Reclassified(s, p), p) == Reclassified(s, p)
  {
  }

  /**
   * A dead entity stays dead, with zero vitals, however often it is
   * reclassified and however old it has become, because its health is 0.
   */
  lemma DeadStaysDead(s: EntityState, p: map<Param, real>, laterAge: nat)
    requires HasRequiredKeys(p)
    requires Reclassified(s, p).status == Dead
    ensures var d := Reclassified(s, p);
      Reclassified(d.(age := laterAge), p) == d.(age := laterAge)
  {
  }

  class Entity {
    var age: nat
    var health: real
    var energy: real
    var status: Status
    /** Fixed at creation; offspring get a fresh, mutated copy. */
    const parameters: map<Param, real>

    /** The bundle is complete, and a dead entity has no health or energy left. */
    ghost predicate Valid()
      reads this
    {
      HasRequiredKeys(parameters) && (status == Dead ==> health == 0.0 && energy == 0.0)
    }

    function State(): EntityState
      reads this
    {
      EntityState(age, health, energy, status)
    }

    /** `Entity(initial_parameters)`: age 0, alive, vitals taken from the bundle. */
    constructor (overrides: map<Param, real>)
      ensures Valid()
      ensures parameters == MergeParameters(overrides)
      ensures age == 0 && status == Alive
      ensures health == parameters[InitialHealth] && energy == parameters[InitialEnergy]
    {
      parameters := MergeParameters(overrides);
      age := 0;
      status := Alive;
      new;
      health := parameters[InitialHealth];
      energy := parameters[InitialEnergy];
    }

    /** `is_alive`: not dead; a valid entity that is not alive has no vitals left. */
    predicate IsAlive(): (r: bool)
      reads this
      ensures r <==> status != Dead
      ensures Valid() && !r ==> health == 0.0 && energy == 0.0
    {
      status != Dead
    }

    /** `update_status`: reclassify, zeroing the vitals on the dead branch. */
    method UpdateStatus()
      requires HasRequiredKeys(parameters)
      modifies this
      ensures State() == Reclassified(old(State()), parameters)
      ensures Valid()
      ensures IsAlive() <==> old(health) > 0.0 && (age as real) < parameters[MaxAge]
    {
      if health <= 0.0 || age as real >= parameters[MaxAge] {
        status := Dead;
        health := 0.0;
        energy := 0.0;
      } else if health >= parameters[ThrivingHealth] && energy >= parameters[ThrivingEnergy] {
        status := Thriving;
      } else if health <= parameters[StrugglingHealth] || energy <= parameters[StrugglingEnergy] {
        status := Struggling;
      } else {
        status := Alive;
      }
    }
  }
}

=== FILE: environment.dfy ===
/**
 * The shared environment of a simulation run: the factor names and their
 * defaults (`default_environment_factors` in src/params.py), the drift of
 * resources, temperature and pollution over the run, the effect of each
 * random event on the factors, and the two coefficients derived from them
 * (the interaction modifier and the predator's kill count), as written in
 * src/main.py.
 */
module Environment {
  import opened Numbers

  /** The factor names of `default_environment_factors`, the keys of the environment. */
  datatype Factor =
    | ResourceAvailability | Temperature | Pollution | EventChance | InteractionStrength
    | MutationRate | MutationStrength | PredatorChance | PredatorThreshold | PredatorImpact

  /** Every factor the simulation looks up by subscript. */
  predicate HasFactorKeys(env: map<Factor, real>)
  {
    && ResourceAvailability in env && Temperature in env && Pollution in env
    && EventChance in env && InteractionStrength in env
    && MutationRate in env && MutationStrength in env
    && PredatorChance in env && PredatorThreshold in env && PredatorImpact in env
  }

  /** `env.get(key, default)`. */
  function Lookup(env: map<Factor, real>, key: Factor, default: real): (r: real)
    ensures key in env ==> r == env[key]
    ensures key !in env ==> r == default
  {
    if key in env then env[key] else default
  }

  /**
   * The default factors. `predator_chance` is drawn once, when the
   * parameter table is loaded, so it is an argument here.
   */
  function DefaultFactors(predatorChance: real): (env: map<Factor, real>)
    ensures HasFactorKeys(env)
    ensures env[PredatorChance] == predatorChance
  {
    map[
      ResourceAvailability := 1.0,
      Temperature := 25.0,
      Pollution := 0.0,
      EventChance := 0.03,
      InteractionStrength := 0.5,
      MutationRate := 0.11,
      MutationStrength := 0.03,
      PredatorChance := predatorChance,
      PredatorThreshold := 250.0,
      PredatorImpact := 0.13
    ]
  }

  /** Overriding factors never removes one. */
  lemma OverridesKeepFactorKeys(env: map<Factor, real>, overrides: map<Factor, real>)
    requires HasFactorKeys(env)
    ensures HasFactorKeys(env + overrides)
  {
  }

  /** The fraction of the run elapsed at epoch `t` of `total`. */
  function Progress(t: nat, total: nat): (f: real)
    requires total > 0
    ensures f >= 0.0
    ensures t <= total ==> f <= 1.0
  {
    t as real / total as real
  }

  /** Resources thin out linearly to half over the run, never below 0.1. */
  function DriftedResources(f: real): (r: real)
    requires f >= 0.0
    ensures 0.1 <= r <= 1.0
    ensures f <= 1.8 ==> r == 1.0 - f * 0.5
  {
    Max(0.1, 1.0 - f * 0.5)
  }

  /** Temperature rises linearly from 20 to 30 degrees over the run. */
  function DriftedTemperature(f: real): (r: real)
    ensures 0.0 <= f <= 1.0 ==> 20.0 <= r <= 30.0
    ensures f == 0.5 ==> r == 25.0
  {
    25.0 + 10.0 * (f - 0.5)
  }

  /** Pollution rises linearly from 0 over the run, capped at 0.8. */
  function DriftedPollution(f: real): (r: real)
    requires f >= 0.0
    ensures 0.0 <= r <= 0.8
    ensures f <= 1.0 ==> r == f * 0.3
  {
    Min(0.8, f * 0.3)
  }

  /**
   * The environment after the gradual drift at epoch `t`: the three drifting
   * factors are overwritten, every other factor is kept.
   */
  function Drifted(env: map<Factor, real>, t: nat, total: nat): (r: map<Factor, real>)
    requires total > 0
    ensures r.Keys == env.Keys + {ResourceAvailability, Temperature, Pollution}
    ensures forall k :: k in env && k != ResourceAvailability && k != Temperature && k != Pollution ==> r[k] == env[k]
    ensures 0.1 <= r[ResourceAvailability] <= 1.0
    ensures 0.0 <= r[Pollution] <= 0.8
    ensures t <= total ==> 20.0 <= r[Temperature] <= 30.0
  {
    var f := Progress(t, total);
    env[ResourceAvailability := DriftedResources(f)]
       [Temperature := DriftedTemperature(f)]
       [Pollution := DriftedPollution(f)]
  }

  datatype Event = ResourceSpike | DiseaseOutbreak | Heatwave

  /** The list `random.choice` picks an event from. */
  const Events: seq<Event> := [ResourceSpike, DiseaseOutbreak, Heatwave]

  /** A resource spike adds 0.2 to resource availability, capped at 1. */
  function SpikedResources(ra: real): (r: real)
    ensures r <= 1.0
    ensures ra <= r || ra > 1.0
    ensures 0.1 <= ra ==> 0.1 <= r
    ensures ra <= 0.8 ==> r == ra + 0.2
  {
    Min(1.0, ra + 0.2)
  }

  /** A heatwave adds `rise` degrees, capped at 45. */
  function HeatwaveTemperature(temperature: real, rise: real): (r: real)
    ensures r <= 45.0
    ensures rise >= 0.0 && temperature <= 45.0 ==> temperature <= r
    ensures temperature + rise <= 45.0 ==> r == temperature + rise
  {
    Min(45.0, temperature + rise)
  }

  /**
   * How hard entities hit each other: scarcity plus crowding
   * (one percent per live entity), clamped to [0.1, 1].
   */
  function InteractionModifier(resourceAvailability: real, numAlive: nat): (m: real)
    ensures 0.1 <= m <= 1.0
    ensures var raw := (1.0 - resourceAvailability) + numAlive as real / 100.0;
      (0.1 <= raw <= 1.0 ==> m == raw) && (raw < 0.1 ==> m == 0.1) && (raw > 1.0 ==> m == 1.0)
  {
    var raw := (1.0 - resourceAvailability) + numAlive as real / 100.0;
    Min(1.0, Max(0.1, raw))
  }

  /**
   * How many entities a predator kills: the impact share of the live count,
   * truncated toward zero by `int`, but at least one.
   */
  function PredatorKillCount(aliveCount: nat, impact: real): (n: int)
    ensures n >= 1
    ensures impact >= 0.0 ==>
      n == if (aliveCount as real * impact).Floor >= 1 then (aliveCount as real * impact).Floor else 1
  {
    var k := Truncate(aliveCount as real * impact);
    if 1 >= k then 1 else k
  }
}

=== FILE: mutation.dfy ===
/**
 * The pure part of offspring mutation (`_apply_mutation` in src/main.py):
 * the table of mutable parameters with their bounds, the new value of one
 * parameter given its mutation factor, and the relation between a parent's
 * bundle and its offspring's.
 */
module Mutation {
  import opened Numbers
  import opened Entities

  /** A mutable parameter, its bounds, and whether it is integer-valued. */
  datatype Bound = Bound(name: Param, lo: real, hi: real, isInteger: bool)

  /** The `mutable_parameters` table. */
  const MutableParameters: seq<Bound> := [
    Bound(MaxAge, 50.0, 200.0, true),
    Bound(MetabolismRate, 0.1, 1.0, false),
    Bound(Resilience, 0.0, 1.0, false),
    Bound(ReproductionChance, 0.01, 0.15, false),
    Bound(Aggression, 0.0, 1.0, false)
  ]

  predicate IsMutable(k: Param)
  {
    k == MaxAge || k == MetabolismRate || k == Resilience || k == ReproductionChance || k == Aggression
  }

  /** The table lists each mutable parameter once, with sound bounds. */
  lemma MutableParametersWellFormed()
    ensures forall i, j :: 0 <= i < j < |MutableParameters| ==> MutableParameters[i].name != MutableParameters[j].name
    ensures forall i :: 0 <= i < |MutableParameters| ==> IsMutable(MutableParameters[i].name)
    ensures forall k :: IsMutable(k) ==> exists i :: 0 <= i < |MutableParameters| && MutableParameters[i].name == k
    ensures forall b :: b in MutableParameters ==> b.lo <= b.hi
  {
    assert MutableParameters[0].name == MaxAge;
    assert MutableParameters[1].name == MetabolismRate;
    assert MutableParameters[2].name == Resilience;
    assert MutableParameters[3].name == ReproductionChance;
    assert MutableParameters[4].name == Aggression;
  }

  /**
   * The new value of one mutated parameter: the original plus `factor`
   * times itself, rounded half to even for an integer parameter, then
   * clamped to the parameter's bounds.
   */
  function MutatedValue(original: real, factor: real, b: Bound): (r: real)
    requires b.lo <= b.hi
    ensures b.lo <= r <= b.hi
    ensures b.isInteger && IsInteger(b.lo) && IsInteger(b.hi) ==> IsInteger(r)
    ensures !b.isInteger && b.lo <= original + original * factor <= b.hi ==> r == original + original * factor
    ensures factor == 0.0 && b.lo <= original <= b.hi && (b.isInteger ==> IsInteger(original)) ==> r == original
  {
    var change := original * factor;
    var value := if b.isInteger then RoundHalfEven(original + change) as real else original + change;
    var r := Clamp(value, b.lo, b.hi);
    assert b.isInteger && IsInteger(b.lo) && IsInteger(b.hi) ==> IsInteger(r) by {
      if b.isInteger && IsInteger(b.lo) && IsInteger(b.hi) {
        ClampKeepsInteger(value, b.lo, b.hi);
      }
    }
    r
  }

  /** A parameter kept as it was, or mutated to a value inside its bounds. */
  predicate KeptOrMutated(value: real, original: real, b: Bound)
  {
    value == original || (b.lo <= value <= b.hi && (b.isInteger ==> IsInteger(value)))
  }

  /**
   * A parameter kept as it was, or mutated by some factor of magnitude at
   * most `strength`: the value `random.uniform(-strength, strength)` can give.
   */
  ghost predicate MutatedBy(value: real, original: real, b: Bound, strength: real)
  {
    || value == original
    || (b.lo <= b.hi && exists f :: -Abs(strength) <= f <= Abs(strength) && value == MutatedValue(original, f, b))
  }

  /** A slight mutation is, in particular, kept or within the parameter's bounds. */
  lemma MutatedWithinBounds(value: real, original: real, b: Bound, strength: real)
    requires b in MutableParameters && MutatedBy(value, original, b, strength)
    ensures KeptOrMutated(value, original, b)
  {
    if value != original {
      var f :| -Abs(strength) <= f <= Abs(strength) && value == MutatedValue(original, f, b);
    }
  }

  /**
   * `mutated` is a mutation of `params` with strength `strength`: same keys,
   * every parameter outside the table unchanged, every one in it kept or
   * moved by a factor of magnitude at most `strength`.
   */
  ghost predicate MutationOf(mutated: map<Param, real>, params: map<Param, real>, strength: real)
  {
    && mutated.Keys == params.Keys
    && (forall k :: k in params && !IsMutable(k) ==> mutated[k] == params[k])
    && (forall b :: b in MutableParameters && b.name in params ==> MutatedBy(mutated[b.name], params[b.name], b, strength))
  }

  /**
   * An offspring's bundle is its parent's, mutated, with fresh initial
   * vitals: every other parameter is inherited unchanged.
   */
  ghost predicate InheritsFrom(child: map<Param, real>, parent: map<Param, real>, strength: real)
  {
    && (forall k :: k in parent ==> k in child)
    && (forall k :: k in parent && !IsMutable(k) && k != InitialHealth && k != InitialEnergy ==> child[k] == parent[k])
    && (forall b :: b in MutableParameters && b.name in parent ==> MutatedBy(child[b.name], parent[b.name], b, strength))
  }

  /**
   * A mutation stays inside the mutable bounds: an offspring's aggression
   * is its parent's or lies in [0, 1], so it is non-negative whenever the
   * parent's is.
   */
  lemma InheritedAggression(child: map<Param, real>, parent: map<Param, real>, strength: real)
    requires InheritsFrom(child, parent, strength) && Aggression in parent
    ensures parent[Aggression] >= 0.0 ==> child[Aggression] >= 0.0
    ensures child[Aggression] == parent[Aggression] || 0.0 <= child[Aggression] <= 1.0
  {
    assert MutableParameters[4] == Bound(Aggression, 0.0, 1.0, false);
    MutatedWithinBounds(child[Aggression], parent[Aggression], MutableParameters[4], strength);
  }

  /**
   * The offspring's bundle as the simulation builds it: the parent's bundle
   * mutated, with fresh initial vitals, then merged over the defaults by
   * the entity constructor. It inherits from the parent.
   */
  lemma OffspringInherits(defaults: map<Param, real>, mutated: map<Param, real>,
                           parent: map<Param, real>, health: real, energy: real, strength: real)
    requires MutationOf(mutated, parent, strength)
    ensures InheritsFrom(defaults + mutated[InitialHealth := health][InitialEnergy := energy], parent, strength)
  {
  }
}

=== FILE: numbers.dfy ===
/**
 * Arithmetic shared by the whole model: Python's `min`, `max` and `abs` on
 * reals, the `max(lo, min(hi, x))` clamp the simulation writes inline, and the
 * two real-to-integer conversions it uses, `int(x)` (truncation toward zero)
 * and `round(x)` (round half to even).
 */
module Numbers {

  function Min(a: real, b: real): (r: real)
    ensures r <= a && r <= b && (r == a || r == b)
  {
    if a <= b then a else b
  }

  function Max(a: real, b: real): (r: real)
    ensures r >= a && r >= b && (r == a || r == b)
  {
    if a >= b then a else b
  }

  function Abs(x: real): (r: real)
    ensures r >= 0.0 && (r == x || r == -x)
  {
    if x < 0.0 then -x else x
  }

  /** `max(lo, min(hi, x))`: the value of [lo, hi] nearest to x. */
  function Clamp(x: real, lo: real, hi: real): (r: real)
    requires lo <= hi
    ensures lo <= r <= hi
    ensures lo <= x <= hi ==> r == x
    ensures x < lo ==> r == lo
    ensures x > hi ==> r == hi
  {
    Max(lo, Min(hi, x))
  }

  /** True when x has no fractional part. */
  predicate IsInteger(x: real)
  {
    x == x.Floor as real
  }

  /** Python's `int(x)` on a float: truncation toward zero. */
  function Truncate(x: real): (r: int)
    ensures x >= 0.0 ==> r == x.Floor
    ensures x >= 0.0 ==> 0.0 <= r as real <= x < r as real + 1.0
    ensures x < 0.0 ==> x <= r as real <= 0.0 && r as real - 1.0 < x
  {
    if x >= 0.0 then x.Floor else -((-x).Floor)
  }

  /**
   * Python 3's `round(x)`: the nearest integer, ties going to the even
   * neighbour (banker's rounding).
   */
  function RoundHalfEven(x: real): (r: int)
    ensures Abs(x - r as real) <= 0.5
    ensures Abs(x - r as real) == 0.5 ==> r % 2 == 0
    ensures IsInteger(x) ==> r as real == x
  {
    var f := x.Floor;
    var d := x - f as real;
    if d < 0.5 then f
    else if d > 0.5 then f + 1
    else if f % 2 == 0 then f
    else f + 1
  }

  /** Clamping an integer between integer bounds gives an integer. */
  lemma ClampKeepsInteger(x: real, lo: real, hi: real)
    requires lo <= hi && IsInteger(x) && IsInteger(lo) && IsInteger(hi)
    ensures IsInteger(Clamp(x, lo, hi))
  {
  }
}

=== FILE: population.dfy ===
/**
 * The list comprehensions the simulation builds over its population
 * (src/main.py): the live entities, the struggling ones, an entity's
 * possible partners, and the per-status counts of the epoch summary.
 * Each keeps the order of the population list.
 */
module Population {
  import opened Draws
  import opened Entities

  /** The statuses `is_alive` accepts. */
  const LivingStatuses: set<Status> := {Alive, Thriving, Struggling}

  /** `[e for e in es if <status test>]`, the test being membership in `wanted`. */
  function Select(es: seq<Entity>, wanted: set<Status>): (r: seq<Entity>)
    reads es
    ensures forall e :: e in r ==> e in es && e.status in wanted
    ensures forall e :: e in es && e.status in wanted ==> e in r
    ensures |r| <= |es|
    ensures Distinct(es) ==> Distinct(r)
  {
    if es == [] then []
    else
      var rest := Select(es[1..], wanted);
      assert Distinct(es) ==> Distinct(rest) && es[0] !in rest by {
        if Distinct(es) {
          DistinctTail(es);
        }
      }
      if es[0].status in wanted then
        assert Distinct(es) ==> Distinct([es[0]] + rest) by {
          if Distinct(es) {
            DistinctCons(es[0], rest);
          }
        }
        [es[0]] + rest
      else rest
  }

  /** A wider status test never selects fewer entities. */
  lemma {:induction false} SelectWider(es: seq<Entity>, narrow: set<Status>, wide: set<Status>)
    requires narrow <= wide
    ensures |Select(es, narrow)| <= |Select(es, wide)|
  {
    if es != [] {
      SelectWider(es[1..], narrow, wide);
    }
  }

  /** `[e for e in es if e.is_alive()]`. */
  function Living(es: seq<Entity>): (r: seq<Entity>)
    reads es
    ensures forall e :: e in r ==> e in es && e.status != Dead
    ensures forall e :: e in es && e.status != Dead ==> e in r
    ensures |r| <= |es|
    ensures Distinct(es) ==> Distinct(r)
  {
    assert forall st: Status :: st != Dead ==> st in LivingStatuses;
    Select(es, LivingStatuses)
  }

  /** `[e for e in es if e.status == "struggling" and e.is_alive()]`. */
  function StrugglingOnes(es: seq<Entity>): (r: seq<Entity>)
    reads es
    ensures forall e :: e in r ==> e in es && e.status == Struggling
    ensures forall e :: e in es && e.status == Struggling ==> e in r
    ensures |r| <= |Living(es)|
    ensures Distinct(es) ==> Distinct(r)
  {
    SelectWider(es, {Struggling}, LivingStatuses);
    Select(es, {Struggling})
  }

  /**
   * `[e for e in es if e.id != x.id]`: everyone but `x`. In a list without
   * repetitions that holds `x`, exactly one element goes.
   */
  function Others<T(==)>(es: seq<T>, x: T): (r: seq<T>)
    ensures forall e :: e in r ==> e in es && e != x
    ensures forall e :: e in es && e != x ==> e in r
    ensures Distinct(es) ==> Distinct(r)
    ensures Distinct(es) ==> |r| == if x in es then |es| - 1 else |es|
  {
    if es == [] then []
    else
      var rest := Others(es[1..], x);
      assert x in es <==> x == es[0] || x in es[1..];
      assert Distinct(es) ==> Distinct(es[1..]) && Distinct(rest) && es[0] !in es[1..] && es[0] !in rest by {
        if Distinct(es) {
          DistinctTail(es);
        }
      }
      if es[0] != x then
        assert Distinct(es) ==> Distinct([es[0]] + rest) by {
          if Distinct(es) {
            DistinctCons(es[0], rest);
          }
        }
        [es[0]] + rest
      else rest
  }

  /** `sum(1 for e in es if e.status == s)`. */
  function CountStatus(es: seq<Entity>, s: Status): (n: nat)
    reads es
    ensures n <= |es|
    ensures n == 0 <==> forall e :: e in es ==> e.status != s
  {
    var r := Select(es, {s});
    assert forall e :: e in es && e.status == s ==> e in r;
    assert |r| > 0 ==> r[0] in r;
    |r|
  }

  /** Disjoint status tests select disjoint parts of the list. */
  lemma {:induction false} SelectDisjoint(es: seq<Entity>, a: set<Status>, b: set<Status>)
    requires a !! b
    ensures |Select(es, a)| + |Select(es, b)| <= |es|
  {
    if es != [] {
      SelectDisjoint(es[1..], a, b);
    }
  }

  /** The thriving and struggling counts of a summary never exceed the population. */
  lemma CountsWithinPopulation(es: seq<Entity>, s1: Status, s2: Status)
    requires s1 != s2
    ensures CountStatus(es, s1) + CountStatus(es, s2) <= |es|
  {
    SelectDisjoint(es, {s1}, {s2});
  }
}

=== FILE: simulation.dfy ===
/**
 * The simulation engine (class `Simulation` in src/main.py): a population
 * of entities under a shared environment, advanced one epoch at a time.
 *
 * An epoch runs, in order: the environment update (drift, at most one
 * random event, the predator), ageing and vitals of every live entity,
 * pairwise interactions, reclassification of every entity, removal of the
 * dead, and reproduction. The run stops after `total_time_steps` epochs or
 * as soon as the population is empty.
 *
 * All randomness comes from the `Rng` the simulation is given. Display,
 * logging, sleeping and the statistics trackers are notifications with no
 * effect on the state and are not modelled.
 */
module Engine {
  import opened Numbers
  import opened Draws
  import opened Entities
  import opened Environment
  import opened Vitals
  import opened Mutation
  import opened Population

  datatype Option<T> = None | Some(value: T)

  /** What `update_totals` receives at the end of a run. */
  datatype RunSummary = RunSummary(totalCreated: nat, finalLive: nat, struggling: nat, thriving: nat)

  /**
   * What `_process_entity` does to one entity: nothing if it is dead;
   * otherwise it ages by one, its energy moves by the energy change and is
   * clamped, its health then moves by the health change computed from the
   * new energy and is clamped, and it is reclassified.
   */
  function Processed(s: EntityState, p: map<Param, real>, env: map<Factor, real>): (r: EntityState)
    requires HasRequiredKeys(p)
    ensures s.status == Dead ==> r == s
    ensures s.status != Dead ==> r.age == s.age + 1
    ensures s.status != Dead ==> r.status == Classify(r.health, r.energy, r.age, p)
    ensures s.status != Dead ==> 0.0 <= r.health <= 100.0 && 0.0 <= r.energy <= 100.0
    ensures s.status != Dead && r.status != Dead ==>
      && r.energy == Clamp(s.energy + EnergyChange(s.health, p, env), 0.0, 100.0)
      && r.health == Clamp(s.health + HealthChange(r.energy, p, env), 0.0, 100.0)
    ensures s.status != Dead ==>
      (r.status == Dead <==>
        Clamp(s.health + HealthChange(Clamp(s.energy + EnergyChange(s.health, p, env), 0.0, 100.0), p, env), 0.0, 100.0) <= 0.0
        || (s.age + 1) as real >= p[MaxAge])
  {
    if s.status == Dead then s
    else
      var energy := Clamp(s.energy + EnergyChange(s.health, p, env), 0.0, 100.0);
      var health := Clamp(s.health + HealthChange(energy, p, env), 0.0, 100.0);
      Reclassified(EntityState(s.age + 1, health, energy, s.status), p)
  }

  /**
   * The factors after the random event `event`, if any: a resource spike
   * raises resource availability, a heatwave raises the temperature by 5
   * to 10 degrees, each capped; nothing else changes.
   */
  ghost predicate EventApplied(before: map<Factor, real>, after: map<Factor, real>, event: Option<Event>)
  {
    && after.Keys == before.Keys
    && (forall k :: k in before && k != ResourceAvailability && k != Temperature ==> after[k] == before[k])
    && (ResourceAvailability in before ==>
          after[ResourceAvailability] ==
            if event == Some(ResourceSpike) then SpikedResources(before[ResourceAvailability])
            else before[ResourceAvailability])
    && (Temperature in before ==>
          if event == Some(Heatwave) then
            Min(45.0, before[Temperature] + 5.0) <= after[Temperature] <= Min(45.0, before[Temperature] + 10.0)
          else after[Temperature] == before[Temperature])
  }

  /**
   * The factors after the environment update of epoch `t` of `total`: the
   * same factors, only the three drifting ones changed, resources in
   * [0.1, 1], pollution in [0, 0.8], and, within the run, temperature at
   * most 45 degrees.
   */
  ghost predicate FactorsUpdated(before: map<Factor, real>, after: map<Factor, real>, t: nat, total: nat)
  {
    && HasFactorKeys(before)
    && after.Keys == before.Keys
    && (forall k :: k in before && k != ResourceAvailability && k != Temperature && k != Pollution ==> after[k] == before[k])
    && 0.1 <= after[ResourceAvailability] <= 1.0
    && 0.0 <= after[Pollution] <= 0.8
    && (t <= total ==> after[Temperature] <= 45.0)
  }

  /** The drift followed by any random event keeps the factors within their bounds. */
  lemma DriftThenEvent(before: map<Factor, real>, after: map<Factor, real>, event: Option<Event>, t: nat, total: nat)
    requires HasFactorKeys(before) && total > 0
    requires EventApplied(Drifted(before, t, total), after, event)
    ensures FactorsUpdated(before, after, t, total)
  {
    var drifted := Drifted(before, t, total);
    assert drifted.Keys == before.Keys;
  }

  /** The damage one entity deals another in an interaction. */
  function Damage(aggression: real, strength: real, modifier: real): (d: real)
    ensures aggression >= 0.0 && strength >= 0.0 && modifier >= 0.0 ==> d >= 0.0
    ensures strength == 0.0 || aggression == 0.0 ==> d == 0.0
  {
    assert aggression >= 0.0 && strength >= 0.0 ==> aggression * strength >= 0.0;
    aggression * strength * modifier
  }

  /**
   * One hit: health drops by the damage and energy by half of it, each
   * floored at zero.
   */
  function Hit(health: real, energy: real, damage: real): (r: (real, real))
    ensures r.0 >= 0.0 && r.1 >= 0.0
    ensures damage >= 0.0 ==> r.0 <= Max(health, 0.0) && r.1 <= Max(energy, 0.0)
    ensures damage <= health && damage / 2.0 <= energy ==>
      health - r.0 == damage && energy - r.1 == (health - r.0) / 2.0
  {
    (Max(0.0, health - damage), Max(0.0, energy - damage / 2.0))
  }

  /**
   * The vitals of one entity, starting from `health` and `energy`, after
   * each live entity among `partners`, in order, has hit it back once with
   * its own aggression. The vitals never go negative, and they never rise
   * when every blow is harmless.
   */
  function HitBack(health: real, energy: real, partners: seq<Entity>, strength: real, modifier: real): (r: (real, real))
    requires forall p :: p in partners ==> Aggression in p.parameters
    reads partners
    ensures health >= 0.0 ==> r.0 >= 0.0
    ensures energy >= 0.0 ==> r.1 >= 0.0
    ensures strength >= 0.0 && modifier >= 0.0 && (forall p :: p in partners ==> p.parameters[Aggression] >= 0.0) ==>
      r.0 <= Max(health, 0.0) && r.1 <= Max(energy, 0.0)
    decreases |partners|
  {
    if partners == [] then (health, energy)
    else
      var last := partners[|partners| - 1];
      var before := HitBack(health, energy, partners[..|partners| - 1], strength, modifier);
      if last.status == Dead then before
      else Hit(before.0, before.1, Damage(last.parameters[Aggression], strength, modifier))
  }

  /**
   * What the environment update can do to one entity: its age is kept, a
   * dead entity is untouched, and otherwise it may lose health to the
   * disease (at least 10, floored at 0) or be killed by the predator.
   */
  predicate Afflicted(s: EntityState, t: EntityState)
  {
    && t.age == s.age
    && (s.status == Dead ==> t == s)
    && (t.status == s.status || (t.status == Dead && t.health == 0.0))
    && (t.health == s.health || 0.0 <= t.health <= Max(0.0, s.health - 10.0))
    && (t.energy == s.energy || t.energy == 0.0)
  }

  /**
   * What the disease outbreak can do to one entity: only the health of a
   * live one changes, to between 30 and 10 below its old value, floored
   * at 0.
   */
  predicate Sickened(s: EntityState, t: EntityState)
  {
    && t.age == s.age && t.energy == s.energy && t.status == s.status
    && (t.health == s.health || (s.status != Dead && Max(0.0, s.health - 30.0) <= t.health <= Max(0.0, s.health - 10.0)))
  }

  /**
   * What the outbreak does to one of its victims: a dead one is left as it
   * is; a live one loses between 10 and 30 health, floored at 0.
   */
  predicate Infected(s: EntityState, t: EntityState)
  {
    && t.age == s.age && t.energy == s.energy && t.status == s.status
    && (s.status == Dead ==> t.health == s.health)
    && (s.status != Dead ==> Max(0.0, s.health - 30.0) <= t.health <= Max(0.0, s.health - 10.0))
  }

  /** What the predator does to one of its victims, a live entity. */
  predicate Killed(s: EntityState, t: EntityState)
  {
    s.status != Dead && t == EntityState(s.age, 0.0, 0.0, Dead)
  }

  /** The outbreak followed by the predator is within what the environment update can do. */
  lemma SicknessThenPredator(s0: EntityState, s1: EntityState, s2: EntityState)
    requires Sickened(s0, s1) && (s2 == s1 || Killed(s1, s2))
    ensures Afflicted(s0, s2)
  {
  }

  /**
   * What the interactions can do to one entity: age and status are kept, a
   * dead entity is untouched, non-negative vitals stay non-negative, and
   * when every aggression and the interaction strength are non-negative
   * (`harmless`) the vitals do not grow beyond their old values or 0.
   */
  predicate Bruised(s: EntityState, t: EntityState, harmless: bool)
  {
    && t.age == s.age && t.status == s.status
    && (s.status == Dead ==> t == s)
    && (s.health >= 0.0 ==> t.health >= 0.0) && (s.energy >= 0.0 ==> t.energy >= 0.0)
    && (harmless ==> t.health <= Max(s.health, 0.0) && t.energy <= Max(s.energy, 0.0))
  }

  /**
   * One entity through processing, the interactions and the
   * reclassification: a dead entity stays dead, and one that is not dead at
   * the end was not dead before, has aged by exactly one and has positive
   * health; when interactions are harmless its vitals end within [0, 100].
   */
  predicate Lived(s: EntityState, t: EntityState, harmless: bool)
  {
    && (s.status == Dead ==> t.status == Dead)
    && (t.status != Dead ==> s.status != Dead && t.age == s.age + 1 && 0.0 < t.health && 0.0 <= t.energy)
    && (harmless ==> t.health <= 100.0 && 0.0 <= t.energy <= 100.0)
  }

  /** Processing, bruising and reclassifying one entity is living through an epoch. */
  lemma SurvivorAged(s1: EntityState, s2: EntityState, s3: EntityState, s4: EntityState,
                     p: map<Param, real>, env: map<Factor, real>, harmless: bool)
    requires HasRequiredKeys(p)
    requires s2 == Processed(s1, p, env) && Bruised(s2, s3, harmless) && s4 == Reclassified(s3, p)
    requires s1.status == Dead ==> s1.health == 0.0
    ensures Lived(s1, s4, harmless)
  {
    if s4.status != Dead {
      assert s3.status != Dead && s2.status != Dead && s1.status != Dead;
    }
  }

  /** The environment update before an epoch of living: the epoch still ages survivors by one. */
  lemma AfflictedThenLived(s0: EntityState, s1: EntityState, s2: EntityState, harmless: bool)
    requires Afflicted(s0, s1) && Lived(s1, s2, harmless)
    ensures Lived(s0, s2, harmless)
  {
  }

  /**
   * A newborn of `parent`: age 0, alive, initial vitals in [80, 100], and a
   * bundle inherited from the parent's under mutation strength `strength`.
   */
  ghost predicate Newborn(child: Entity, parent: Entity, strength: real)
    reads child
  {
    && child.Valid() && child.age == 0 && child.status == Alive
    && 80.0 <= child.health <= 100.0 && 80.0 <= child.energy <= 100.0
    && InheritsFrom(child.parameters, parent.parameters, strength)
  }

  class Simulation {
    var entities: seq<Entity>
    var currentTime: nat
    var totalEntities: nat
    const totalTimeSteps: nat
    var environment: map<Factor, real>
    /** Epochs started by `RunSimulation`. */
    var count: nat
    const rng: Rng

    ghost predicate Valid()
      reads this, entities
    {
      && rng.Valid()
      && HasFactorKeys(environment)
      && Distinct(entities)
      && (forall i :: 0 <= i < |entities| ==> entities[i].Valid())
    }

    /** Interactions can only take health and energy away. */
    ghost predicate Harmless()
      reads this, entities
    {
      && InteractionStrength in environment && environment[InteractionStrength] >= 0.0
      && (forall e :: e in entities ==> Aggression in e.parameters && e.parameters[Aggression] >= 0.0)
    }

    /** An entity as `Entity()` creates it: default parameters, age 0, alive, full vitals. */
    static predicate Pristine(e: Entity)
      reads e
    {
      e.parameters == DefaultParameters() && e.age == 0 && e.status == Alive && e.health == 100.0 && e.energy == 100.0
    }

    /** `initial_entities` new entities with the default parameters, as `Entity()` creates them. */
    static method NewEntities(n: nat) returns (population: seq<Entity>)
      ensures |population| == n && Distinct(population)
      ensures forall e :: e in population ==> fresh(e) && e.Valid() && Pristine(e)
    {
      MergeNothing();
      population := [];
      for i := 0 to n
        invariant |population| == i && Distinct(population)
        invariant forall e :: e in population ==> fresh(e) && e.Valid() && Pristine(e)
      {
        var e := new Entity(map[]);
        DistinctAppend(population, e);
        population := population + [e];
      }
    }

    /**
     * `Simulation(initial_entities=5, time_steps=1000, environment_params=None)`;
     * an absent `environment_params` is the empty map. The predator chance
     * of the default factors and the draws come first.
     */
    constructor (predatorChance: real, rng: Rng, initialEntities: nat := 5, timeSteps: nat := 1000,
                 environmentParams: map<Factor, real> := map[])
      requires rng.Valid()
      ensures Valid()
      ensures this.rng == rng && totalTimeSteps == timeSteps && currentTime == 0 && count == 0
      ensures environment == DefaultFactors(predatorChance) + environmentParams
      ensures |entities| == initialEntities && totalEntities == initialEntities
      ensures forall e :: e in entities ==> Pristine(e)
    {
      var population := NewEntities(initialEntities);
      this.rng := rng;
      totalTimeSteps := timeSteps;
      entities := population;
      currentTime := 0;
      totalEntities := initialEntities;
      environment := DefaultFactors(predatorChance) + environmentParams;
      count := 0;
      OverridesKeepFactorKeys(DefaultFactors(predatorChance), environmentParams);
    }

    /** `add_entity`: append one entity and count it. */
    method AddEntity(e: Entity)
      requires Valid() && e.Valid() && e !in entities
      modifies this
      ensures Valid()
      ensures entities == old(entities) + [e] && totalEntities == old(totalEntities) + 1
      ensures environment == old(environment) && currentTime == old(currentTime) && count == old(count)
    {
      DistinctAppend(entities, e);
      entities := entities + [e];
      totalEntities := totalEntities + 1;
    }

    /** `_process_entity`. */
    method ProcessEntity(e: Entity)
      requires e.Valid()
      modifies e
      ensures e.Valid()
      ensures e.State() == Processed(old(e.State()), e.parameters, environment)
    {
      if !e.IsAlive() {
        return;
      }
      e.age := e.age + 1;
      var energyChange := EnergyChange(e.health, e.parameters, environment);
      e.energy := Clamp(e.energy + energyChange, 0.0, 100.0);
      var healthChange := HealthChange(e.energy, e.parameters, environment);
      e.health := Clamp(e.health + healthChange, 0.0, 100.0);
      e.UpdateStatus();
    }

    /**
     * `_update_environment`: the drift, then at most one random event, then
     * the predator.
     */
    method UpdateEnvironment()
      requires Valid() && totalTimeSteps > 0
      modifies this`environment, rng, entities
      ensures Valid()
      ensures FactorsUpdated(old(environment), environment, currentTime, totalTimeSteps)
      ensures forall e :: e in entities ==> Afflicted(old(e.State()), e.State())
    {
      ghost var before := environment;
      environment := Drifted(environment, currentTime, totalTimeSteps);
      var event := Strike();
      DriftThenEvent(before, environment, event, currentTime, totalTimeSteps);
    }

    /** The random event, then the predator: together they can only afflict an entity. */
    method Strike() returns (event: Option<Event>)
      requires Valid()
      modifies this`environment, rng, entities
      ensures Valid()
      ensures EventApplied(old(environment), environment, event)
      ensures forall e :: e in entities ==> Afflicted(old(e.State()), e.State())
    {
      var population := entities;
      var sick;
      event, sick := ApplyRandomEvent();
      label Struck:
      Prey();
      forall e | e in population
        ensures Afflicted(old(e.State()), e.State())
      {
        SicknessThenPredator(old(e.State()), old@Struck(e.State()), e.State());
      }
    }

    /** The predator step as the environment update sees it: a live entity may be killed, nothing else changes. */
    method Prey()
      requires Valid()
      modifies rng, entities
      ensures Valid()
      ensures forall e :: e in entities ==> e.State() == old(e.State()) || Killed(old(e.State()), e.State())
    {
      var _, _, _, _ := PredatorCull();
    }

    /**
     * The random event: with probability `event_chance` one of a resource
     * spike, a disease outbreak or a heatwave, chosen uniformly.
     */
    method ApplyRandomEvent() returns (event: Option<Event>, victims: seq<Entity>)
      requires Valid()
      modifies this`environment, rng, entities
      ensures Valid()
      ensures event.Some? <==> rng.stream(old(rng.pos)) < old(environment)[EventChance]
      ensures EventApplied(old(environment), environment, event)
      ensures event != Some(DiseaseOutbreak) ==> victims == []
      ensures event == Some(DiseaseOutbreak) ==> |victims| == if |entities| < 3 then |entities| else 3
      ensures Distinct(victims) && forall v :: v in victims ==> v in entities
      ensures forall e :: e in entities ==>
        if e in victims then Infected(old(e.State()), e.State()) else e.State() == old(e.State())
    {
      event, victims := None, [];
      var roll := rng.Random();
      if roll < environment[EventChance] {
        var which := rng.Below(|Events|);
        event := Some(Events[which]);
        match Events[which]
        case ResourceSpike =>
          SpikeResources();
        case DiseaseOutbreak =>
          victims := SpreadDisease();
        case Heatwave =>
          RaiseTemperature();
      }
    }

    /** The resource spike: availability up by 0.2, capped at 1. */
    method SpikeResources()
      requires ResourceAvailability in environment
      modifies this`environment
      ensures EventApplied(old(environment), environment, Some(ResourceSpike))
    {
      environment := environment[ResourceAvailability := SpikedResources(environment[ResourceAvailability])];
    }

    /** The heatwave: temperature up by a uniform 5 to 10 degrees, capped at 45. */
    method RaiseTemperature()
      requires rng.Valid() && Temperature in environment
      modifies this`environment, rng
      ensures EventApplied(old(environment), environment, Some(Heatwave))
      ensures environment[Temperature] == HeatwaveTemperature(old(environment)[Temperature], UniformValue(5.0, 10.0, rng.stream(old(rng.pos))))
    {
      var rise := rng.Uniform(5.0, 10.0);
      environment := environment[Temperature := HeatwaveTemperature(environment[Temperature], rise)];
    }

    /**
     * The disease outbreak: up to three distinct entities, sampled from the
     * whole population; the live ones among them lose between 10 and 30
     * health, floored at 0.
     */
    method SpreadDisease() returns (victims: seq<Entity>)
      requires Valid()
      modifies rng, entities
      ensures Valid()
      ensures |victims| == if |entities| < 3 then |entities| else 3
      ensures Distinct(victims) && forall v :: v in victims ==> v in entities
      ensures forall e :: e in entities ==>
        if e in victims then Infected(old(e.State()), e.State()) else e.State() == old(e.State())
    {
      var population := entities;
      victims := rng.Sample(population, if |population| < 3 then |population| else 3);
      for i := 0 to |victims|
        invariant Valid() && entities == population
        invariant forall e :: e in entities ==>
          if e in victims[..i] then Infected(old(e.State()), e.State()) else e.State() == old(e.State())
      {
        var v := victims[i];
        DistinctElsewhere(victims, i);
        assert v in old(entities);  // the frame of the call below
        Sicken(v);
        assert victims[..i + 1] == victims[..i] + [v];
      }
      assert victims[..|victims|] == victims;
    }

    /** One victim of the outbreak: a live one loses `uniform(10, 30)` health, floored at 0. */
    method Sicken(v: Entity)
      requires rng.Valid() && v.Valid()
      modifies rng, v
      ensures rng.Valid() && v.Valid()
      ensures Infected(old(v.State()), v.State())
      ensures old(v.status) != Dead ==> v.health == Max(0.0, old(v.health) - (10.0 + 20.0 * rng.stream(old(rng.pos))))
    {
      if v.IsAlive() {
        var loss := rng.Uniform(10.0, 30.0);
        v.health := Max(0.0, v.health - loss);
      }
    }

    /** The predator's kill loop: health to zero, then `update_status`. */
    method Kill(victims: seq<Entity>)
      requires Valid() && Distinct(victims)
      requires forall v :: v in victims ==> v in entities && v.status != Dead
      modifies entities
      ensures Valid()
      ensures forall e :: e in entities ==>
        if e in victims then Killed(old(e.State()), e.State()) else e.State() == old(e.State())
    {
      for i := 0 to |victims|
        invariant Valid()
        invariant forall e :: e in entities ==>
          if e in victims[..i] then Killed(old(e.State()), e.State()) else e.State() == old(e.State())
      {
        var v := victims[i];
        DistinctElsewhere(victims, i);
        v.health := 0.0;
        v.UpdateStatus();
        assert victims[..i + 1] == victims[..i] + [v];
      }
      assert victims[..|victims|] == victims;
    }

    /**
     * The predator's victims among the live entities `living`, of which
     * `struggling` are the struggling ones: `n` struggling entities if there
     * are that many, otherwise `n` live ones, capped at the live count.
     */
    method ChoosePrey(n: int, living: seq<Entity>, struggling: seq<Entity>) returns (victims: seq<Entity>)
      requires rng.Valid() && n >= 1 && Distinct(living) && Distinct(struggling)
      modifies rng
      ensures |victims| == if |struggling| >= n then n else if n <= |living| then n else |living|
      ensures Distinct(victims)
      ensures |struggling| >= n ==> forall v :: v in victims ==> v in struggling
      ensures |struggling| < n ==> forall v :: v in victims ==> v in living
    {
      if |struggling| >= n {
        victims := rng.Sample(struggling, n as nat);
      } else {
        victims := rng.Sample(living, if n <= |living| then n as nat else |living|);
      }
    }

    /**
     * The predator: when more entities are alive than `predator_threshold`
     * and the gate draw exceeds `predator_chance` (the comparison as
     * written), it kills `PredatorKillCount` distinct live entities, capped
     * at the live count: struggling ones if there are enough of them,
     * otherwise any live ones.
     */
    method PredatorCull() returns (fired: bool, victims: seq<Entity>, aliveCount: nat, strugglingCount: nat)
      requires Valid()
      modifies rng, entities
      ensures Valid()
      ensures aliveCount == old(|Living(entities)|) && strugglingCount == old(|StrugglingOnes(entities)|)
      ensures fired <==> aliveCount as real > environment[PredatorThreshold]
                         && rng.stream(old(rng.pos)) > environment[PredatorChance]
      ensures !fired ==> victims == []
      ensures fired ==>
        var n := PredatorKillCount(aliveCount, environment[PredatorImpact]);
        |victims| == if n <= aliveCount then n else aliveCount
      ensures fired && strugglingCount >= PredatorKillCount(aliveCount, environment[PredatorImpact]) ==>
        forall v :: v in entities && v in victims ==> old(v.status) == Struggling
      ensures Distinct(victims) && forall v :: v in victims ==> v in entities
      ensures forall e :: e in entities ==>
        if e in victims then Killed(old(e.State()), e.State()) else e.State() == old(e.State())
    {
      fired, victims := false, [];
      var living := Living(entities);
      var struggling := StrugglingOnes(entities);
      aliveCount, strugglingCount := |living|, |struggling|;
      if aliveCount as real > environment[PredatorThreshold] {
        var roll := rng.Random();
        if roll > environment[PredatorChance] {
          fired := true;
          victims := ChoosePrey(PredatorKillCount(aliveCount, environment[PredatorImpact]), living, struggling);
          Kill(victims);
        }
      }
    }

    /** The epoch's processing loop: `_process_entity` on every entity in turn. */
    method ProcessEntities()
      requires Valid()
      modifies entities
      ensures Valid()
      ensures forall e :: e in entities ==> e.State() == Processed(old(e.State()), e.parameters, environment)
    {
      for i := 0 to |entities|
        invariant Valid()
        invariant forall j :: 0 <= j < i ==>
          entities[j].State() == Processed(old(entities[j].State()), entities[j].parameters, environment)
        invariant forall j :: i <= j < |entities| ==> entities[j].State() == old(entities[j].State())
      {
        DistinctElsewhere(entities, i);
        ProcessEntity(entities[i]);
      }
    }

    /** The reclassification loop after the interactions: `update_status` on every entity. */
    method ReclassifyEntities()
      requires Valid()
      modifies entities
      ensures Valid()
      ensures forall e :: e in entities ==> e.State() == Reclassified(old(e.State()), e.parameters)
    {
      for i := 0 to |entities|
        invariant Valid()
        invariant forall j :: 0 <= j < i ==>
          entities[j].State() == Reclassified(old(entities[j].State()), entities[j].parameters)
        invariant forall j :: i <= j < |entities| ==> entities[j].State() == old(entities[j].State())
      {
        DistinctElsewhere(entities, i);
        entities[i].UpdateStatus();
      }
    }

    /**
     * The partners of one live entity: `min(num_alive - 1, 3)` distinct
     * live entities other than itself.
     */
    method ChoosePartners(living: seq<Entity>, e: Entity) returns (partners: seq<Entity>)
      requires rng.Valid() && Distinct(living) && e in living
      modifies rng
      ensures |partners| == if |living| - 1 < 3 then |living| - 1 else 3
      ensures Distinct(partners)
      ensures forall p :: p in partners ==> p in living && p != e
    {
      var targets := Others(living, e);
      partners := rng.Sample(targets, if |living| - 1 < 3 then |living| - 1 else 3);
    }

    /**
     * One interaction, when both are still alive: `e1` hits `e2`, then `e2`
     * hits `e1`, each with its own aggression.
     */
    method Interact(e1: Entity, e2: Entity, modifier: real)
      requires e1 != e2 && e1.Valid() && e2.Valid() && InteractionStrength in environment
      modifies e1, e2
      ensures e1.age == old(e1.age) && e1.status == old(e1.status)
      ensures e2.age == old(e2.age) && e2.status == old(e2.status)
      ensures !(old(e1.IsAlive()) && old(e2.IsAlive())) ==> e1.State() == old(e1.State()) && e2.State() == old(e2.State())
      ensures old(e1.IsAlive()) && old(e2.IsAlive()) ==>
        && (e2.health, e2.energy) ==
           Hit(old(e2.health), old(e2.energy), Damage(e1.parameters[Aggression], environment[InteractionStrength], modifier))
        && (e1.health, e1.energy) ==
           Hit(old(e1.health), old(e1.energy), Damage(e2.parameters[Aggression], environment[InteractionStrength], modifier))
    {
      if e1.IsAlive() && e2.IsAlive() {
        var toSecond := Damage(e1.parameters[Aggression], environment[InteractionStrength], modifier);
        e2.health, e2.energy := Max(0.0, e2.health - toSecond), Max(0.0, e2.energy - toSecond / 2.0);
        var toFirst := Damage(e2.parameters[Aggression], environment[InteractionStrength], modifier);
        e1.health, e1.energy := Max(0.0, e1.health - toFirst), Max(0.0, e1.energy - toFirst / 2.0);
      }
    }

    /**
     * The interactions of one entity with each of its partners in turn. When
     * it is alive, each live partner takes one hit from it, and it takes one
     * hit back from each live partner, in order (`HitBack`); nobody else
     * changes, and no age or status does.
     */
    method Engage(e: Entity, partners: seq<Entity>, modifier: real)
      requires Valid() && e in entities && e !in partners && Distinct(partners)
      requires forall p :: p in partners ==> p in entities
      modifies entities
      ensures Valid()
      ensures forall x :: x in entities ==>
        && x.age == old(x.age) && x.status == old(x.status)
        && (old(x.status) == Dead || !old(e.IsAlive()) || (x != e && x !in partners) ==> x.State() == old(x.State()))
      ensures forall k :: 0 <= k < |partners| && old(e.IsAlive()) && old(partners[k].IsAlive()) ==>
        (partners[k].health, partners[k].energy) ==
        Hit(old(partners[k].health), old(partners[k].energy), Damage(e.parameters[Aggression], environment[InteractionStrength], modifier))
      ensures old(e.IsAlive()) ==>
        (e.health, e.energy) == old(HitBack(e.health, e.energy, partners, environment[InteractionStrength], modifier))
    {
      for j := 0 to |partners|
        invariant Valid()
        invariant forall p :: p in partners ==> Aggression in p.parameters
        invariant forall x :: x in entities ==>
          && x.age == old(x.age) && x.status == old(x.status)
          && (old(x.status) == Dead || !old(e.IsAlive()) || (x != e && x !in partners[..j]) ==> x.State() == old(x.State()))
        invariant forall k :: 0 <= k < j && old(e.IsAlive()) && old(partners[k].IsAlive()) ==>
          (partners[k].health, partners[k].energy) ==
          Hit(old(partners[k].health), old(partners[k].energy), Damage(e.parameters[Aggression], environment[InteractionStrength], modifier))
        invariant old(e.IsAlive()) ==>
          (e.health, e.energy) == old(HitBack(e.health, e.energy, partners[..j], environment[InteractionStrength], modifier))
      {
        assert partners[j] in old(entities);  // the frame of the call below
        assert partners[..j + 1] == partners[..j] + [partners[j]];
        DistinctElsewhere(partners, j);
        Interact(e, partners[j], modifier);
      }
      assert partners[..|partners|] == partners;
    }

    /**
     * One live entity's round of interactions, with each of its partners in
     * turn: the exact hits of `Engage`, and what they imply for everyone:
     * ages and statuses are kept, the dead are untouched, vitals stay
     * non-negative, and they never rise when interactions are harmless.
     */
    method Meet(e: Entity, partners: seq<Entity>, modifier: real)
      requires Valid() && e in entities && e !in partners && Distinct(partners)
      requires forall p :: p in partners ==> p in entities
      requires modifier >= 0.0
      modifies entities
      ensures Valid()
      ensures forall x :: x in entities && x != e && x !in partners ==> x.State() == old(x.State())
      ensures !old(e.IsAlive()) ==> forall x :: x in entities ==> x.State() == old(x.State())
      ensures forall x :: x in partners && old(e.IsAlive()) && old(x.IsAlive()) ==>
        (x.health, x.energy) == Hit(old(x.health), old(x.energy), Damage(e.parameters[Aggression], environment[InteractionStrength], modifier))
      ensures old(e.IsAlive()) ==>
        (e.health, e.energy) == old(HitBack(e.health, e.energy, partners, environment[InteractionStrength], modifier))
      ensures forall x :: x in entities ==> Bruised(old(x.State()), x.State(), old(Harmless()))
    {
      Engage(e, partners, modifier);
    }

    /**
     * `_handle_interactions`: with at least two live entities, every live
     * entity in turn meets up to three others.
     */
    method HandleInteractions()
      requires Valid()
      modifies rng, entities
      ensures Valid()
      ensures |old(Living(entities))| < 2 ==>
        rng.pos == old(rng.pos) && forall e :: e in entities ==> e.State() == old(e.State())
      ensures forall e :: e in entities ==> Bruised(old(e.State()), e.State(), old(Harmless()))
    {
      var living := Living(entities);
      if |living| < 2 {
        return;
      }
      var modifier := InteractionModifier(environment[ResourceAvailability], |living|);
      for i := 0 to |living|
        invariant Valid()
        invariant forall e :: e in entities ==> Bruised(old(e.State()), e.State(), old(Harmless()))
      {
        var partners := ChoosePartners(living, living[i]);
        Meet(living[i], partners, modifier);
      }
    }

    /**
     * One row of `_apply_mutation`: with probability `rate` the parameter
     * moves by a factor drawn uniformly from [-strength, strength].
     */
    method MutateParameter(m: map<Param, real>, b: Bound, rate: real, strength: real) returns (r: map<Param, real>)
      requires rng.Valid() && b in MutableParameters && b.name in m
      modifies rng
      ensures r.Keys == m.Keys
      ensures forall k :: k in m && k != b.name ==> r[k] == m[k]
      ensures rng.stream(old(rng.pos)) >= rate ==> r == m
      ensures rng.stream(old(rng.pos)) < rate ==>
        r == m[b.name := MutatedValue(m[b.name], UniformValue(-strength, strength, rng.stream(old(rng.pos) + 1)), b)]
      ensures MutatedBy(r[b.name], m[b.name], b, strength)
    {
      r := m;
      var roll := rng.Random();
      if roll < rate {
        var factor := rng.Uniform(-strength, strength);
        assert -Abs(strength) <= factor <= Abs(strength);
        r := m[b.name := MutatedValue(m[b.name], factor, b)];
      }
    }

    /**
     * `_apply_mutation`: each mutable parameter, in table order, mutates
     * with probability `mutation_rate`, by a factor drawn uniformly from
     * [-mutation_strength, mutation_strength].
     */
    method ApplyMutation(params: map<Param, real>) returns (mutated: map<Param, real>)
      requires rng.Valid() && HasFactorKeys(environment)
      requires forall k :: IsMutable(k) ==> k in params
      modifies rng
      ensures MutationOf(mutated, params, environment[MutationStrength])
      ensures environment[MutationRate] <= 0.0 ==> mutated == params
    {
      MutableParametersWellFormed();
      var table := MutableParameters;
      mutated := params;
      var rate, strength := environment[MutationRate], environment[MutationStrength];
      for i := 0 to |table|
        invariant mutated.Keys == params.Keys
        invariant forall k :: k in params && !IsMutable(k) ==> mutated[k] == params[k]
        invariant forall j :: 0 <= j < i ==> MutatedBy(mutated[table[j].name], params[table[j].name], table[j], strength)
        invariant forall j :: i <= j < |table| ==> mutated[table[j].name] == params[table[j].name]
        invariant rate <= 0.0 ==> mutated == params
      {
        mutated := MutateParameter(mutated, table[i], rate, strength);
      }
    }

    /**
     * One offspring of `parent`: a mutated copy of the parent's bundle with
     * initial health and energy drawn uniformly from [80, 100].
     */
    method Spawn(parent: Entity) returns (child: Entity)
      requires rng.Valid() && HasFactorKeys(environment) && parent.Valid()
      modifies rng
      ensures fresh(child) && child.Valid()
      ensures child.age == 0 && child.status == Alive
      ensures 80.0 <= child.health <= 100.0 && 80.0 <= child.energy <= 100.0
      ensures child.health == child.parameters[InitialHealth] && child.energy == child.parameters[InitialEnergy]
      ensures InheritsFrom(child.parameters, parent.parameters, environment[MutationStrength])
    {
      var mutated := ApplyMutation(parent.parameters);
      var health := rng.Uniform(80.0, 100.0);
      var energy := rng.Uniform(80.0, 100.0);
      var bundle := mutated[InitialHealth := health][InitialEnergy := energy];
      assert bundle[InitialHealth] == health && bundle[InitialEnergy] == energy;
      OffspringInherits(DefaultParameters(), mutated, parent.parameters, health, energy, environment[MutationStrength]);
      child := new Entity(bundle);
    }

    /**
     * One entity's turn in `_handle_reproduction`, up to the parent's
     * health cost: a thriving entity old enough draws against its
     * `reproduction_chance` (the draw is skipped otherwise) and, on success,
     * has one offspring.
     */
    method Reproduce(e: Entity) returns (child: Option<Entity>)
      requires rng.Valid() && HasFactorKeys(environment) && e.Valid()
      modifies rng
      ensures child.Some? <==>
        && e.status == Thriving && e.age as real >= e.parameters[MinReproductionAge]
        && rng.stream(old(rng.pos)) < e.parameters[ReproductionChance]
      ensures child.Some? ==> fresh(child.value) && Newborn(child.value, e, environment[MutationStrength])
    {
      child := None;
      if e.status == Thriving && e.age as real >= e.parameters[MinReproductionAge] {
        var roll := rng.Random();
        if roll < e.parameters[ReproductionChance] {
          var offspring := Spawn(e);
          child := Some(offspring);
        }
      }
    }

    /**
     * The loop of `_handle_reproduction` without the parents' health cost:
     * who reproduces, and the offspring, in population order.
     */
    method ChooseParents() returns (parents: seq<Entity>, offspring: seq<Entity>)
      requires Valid()
      modifies rng
      ensures |parents| == |offspring| && Distinct(parents) && Distinct(offspring)
      ensures forall p :: p in parents ==>
        p in entities && p.status == Thriving && p.age as real >= p.parameters[MinReproductionAge]
      ensures forall e ::
        (e in entities && e.status == Thriving && e.age as real >= e.parameters[MinReproductionAge] &&
         e.parameters[ReproductionChance] >= 1.0) ==> e in parents
      ensures forall k :: 0 <= k < |offspring| ==> fresh(offspring[k]) && Newborn(offspring[k], parents[k], environment[MutationStrength])
    {
      parents, offspring := [], [];
      var population := entities;
      for i := 0 to |population|
        invariant |parents| == |offspring| && Distinct(parents) && Distinct(offspring)
        invariant forall p :: p in parents ==>
          p in population && p.status == Thriving && p.age as real >= p.parameters[MinReproductionAge]
        invariant forall j :: i <= j < |population| ==> population[j] !in parents
        invariant forall j ::
          (0 <= j < i && population[j].status == Thriving &&
           population[j].age as real >= population[j].parameters[MinReproductionAge] &&
           population[j].parameters[ReproductionChance] >= 1.0) ==> population[j] in parents
        invariant forall k :: 0 <= k < |offspring| ==> fresh(offspring[k]) && Newborn(offspring[k], parents[k], environment[MutationStrength])
      {
        var e := population[i];
        DistinctElsewhere(population, i);
        var child := Reproduce(e);
        if child.Some? {
          DistinctAppend(parents, e);
          DistinctAppend(offspring, child.value);
          parents, offspring := parents + [e], offspring + [child.value];
        }
      }
    }

    /** Each parent loses 3 health, not clamped and without reclassification. */
    method PayCost(parents: seq<Entity>)
      requires Valid() && Distinct(parents)
      requires forall p :: p in parents ==> p in entities && p.status != Dead
      modifies entities
      ensures Valid()
      ensures forall p :: p in parents ==> p.health == old(p.health) - 3.0
      ensures forall e :: e in entities ==> e.age == old(e.age) && e.status == old(e.status) && e.energy == old(e.energy)
      ensures forall e :: e in entities && e !in parents ==> e.health == old(e.health)
    {
      for i := 0 to |parents|
        invariant Valid()
        invariant forall p :: p in parents[..i] ==> p.health == old(p.health) - 3.0
        invariant forall e :: e in entities ==> e.age == old(e.age) && e.status == old(e.status) && e.energy == old(e.energy)
        invariant forall e :: e in entities && e !in parents[..i] ==> e.health == old(e.health)
      {
        var p := parents[i];
        DistinctElsewhere(parents, i);
        assert p in old(entities);
        p.health := p.health - 3.0;
        assert parents[..i + 1] == parents[..i] + [p];
      }
      assert parents[..|parents|] == parents;
    }

    /**
     * `_handle_reproduction`: every thriving entity old enough reproduces
     * with its own `reproduction_chance`; the offspring join the population
     * after all parents have been considered.
     */
    method HandleReproduction() returns (parents: seq<Entity>, offspring: seq<Entity>)
      requires Valid()
      modifies this`entities, this`totalEntities, rng, entities
      ensures Valid()
      ensures entities == old(entities) + offspring
      ensures totalEntities == old(totalEntities) + |offspring|
      ensures environment == old(environment) && currentTime == old(currentTime) && count == old(count)
      ensures |parents| == |offspring| && Distinct(parents)
      ensures forall p :: p in parents ==>
        && p in old(entities) && old(p.status) == Thriving
        && p.age as real >= p.parameters[MinReproductionAge]
        && p.health == old(p.health) - 3.0
      ensures forall e ::
        (e in old(entities) && old(e.status) == Thriving && e.age as real >= e.parameters[MinReproductionAge] &&
         e.parameters[ReproductionChance] >= 1.0) ==> e in parents
      ensures forall e :: e in old(entities) ==> e.age == old(e.age) && e.status == old(e.status) && e.energy == old(e.energy)
      ensures forall e :: e in old(entities) && e !in parents ==> e.health == old(e.health)
      ensures forall k :: 0 <= k < |offspring| ==> fresh(offspring[k]) && Newborn(offspring[k], parents[k], environment[MutationStrength])
    {
      parents, offspring := ChooseParents();
      totalEntities := totalEntities + |offspring|;
      PayCost(parents);
      DistinctConcat(entities, offspring);
      entities := entities + offspring;
    }

    /** `_process_entity` on every entity, then the interactions, then the reclassification. */
    method Live()
      requires Valid()
      modifies rng, entities
      ensures Valid()
      ensures old(Harmless()) ==> Harmless()
      ensures forall e :: e in entities ==> Lived(old(e.State()), e.State(), old(Harmless()))
    {
      ProcessEntities();
      label Processed:
      HandleInteractions();
      label Met:
      ReclassifyEntities();
      assert old(Harmless()) ==> old@Processed(Harmless());
      forall e | e in old(entities)
        ensures Lived(old(e.State()), e.State(), old(Harmless()))
      {
        assert old(e.Valid());
        SurvivorAged(old(e.State()), old@Processed(e.State()), old@Met(e.State()), e.State(),
                     e.parameters, environment, old(Harmless()));
      }
    }

    /**
     * The part of an epoch that keeps the population list: the environment
     * update, `_process_entity` on every entity, the interactions and the
     * reclassification.
     */
    method Advance()
      requires Valid() && totalTimeSteps > 0
      modifies this`environment, rng, entities
      ensures Valid()
      ensures forall e :: e in entities && old(e.status) == Dead ==> e.status == Dead
      ensures forall e :: e in entities && e.status != Dead ==> e.age == old(e.age) + 1 && 0.0 < e.health && 0.0 <= e.energy
      ensures old(Harmless()) ==> Harmless() && forall e :: e in entities ==> e.health <= 100.0 && 0.0 <= e.energy <= 100.0
    {
      UpdateEnvironment();
      label Updated:
      assert old(Harmless()) ==> Harmless();
      Live();
      forall e | e in old(entities)
        ensures Lived(old(e.State()), e.State(), old(Harmless()))
      {
        AfflictedThenLived(old(e.State()), old@Updated(e.State()), e.State(), old(Harmless()));
      }
    }

    /** The removal of the dead: the list keeps its live entities, in order. */
    method RemoveDead()
      requires Valid()
      modifies this`entities
      ensures Valid()
      ensures entities == Living(old(entities))
    {
      entities := Living(entities);
      assert forall i :: 0 <= i < |entities| ==> entities[i] in old(entities);
    }

    /**
     * `Advance`, then the removal of the dead: the survivors are the old
     * entities that are not dead, each having aged by one.
     */
    method Survive() returns (survivors: seq<Entity>)
      requires Valid() && totalTimeSteps > 0
      modifies this`environment, this`entities, rng, entities
      ensures Valid() && entities == survivors
      ensures forall e :: e in old(entities) ==> (e in survivors <==> e.status != Dead)
      ensures forall e :: e in survivors ==>
        e in old(entities) && old(e.status) != Dead && e.status != Dead && e.age == old(e.age) + 1
      ensures old(Harmless()) ==> Harmless() && forall e :: e in entities ==> e.health <= 100.0 && 0.0 <= e.energy <= 100.0
    {
      Advance();
      RemoveDead();
      survivors := entities;
      assert forall e :: e in survivors ==> e in old(entities);
    }

    /**
     * One epoch of `run_simulation` after the clock update: `Advance`, the
     * removal of the dead, and reproduction. The population becomes the
     * survivors followed by the newborns: an old entity survives exactly
     * when it is not dead, and then it was alive before and has aged by
     * one; nobody in the new population is dead.
     */
    method RunEpoch() returns (survivors: seq<Entity>, parents: seq<Entity>, offspring: seq<Entity>)
      requires Valid() && totalTimeSteps > 0
      modifies this`environment, this`entities, this`totalEntities, rng, entities
      ensures Valid()
      ensures entities == survivors + offspring
      ensures totalEntities == old(totalEntities) + |offspring|
      ensures forall e :: e in old(entities) ==> (e in survivors <==> e.status != Dead)
      ensures forall e :: e in survivors ==>
        e in old(entities) && old(e.status) != Dead && e.status != Dead && e.age == old(e.age) + 1
      ensures fresh(offspring) && forall e :: e in offspring ==> e.age == 0 && e.status == Alive
      ensures |parents| == |offspring| && Distinct(parents)
      ensures forall p :: p in parents ==>
        p in survivors && p.status == Thriving && p.age as real >= p.parameters[MinReproductionAge]
      ensures forall e ::
        (e in survivors && e.status == Thriving && e.age as real >= e.parameters[MinReproductionAge] &&
         e.parameters[ReproductionChance] >= 1.0) ==> e in parents
      ensures forall k :: 0 <= k < |offspring| ==> Newborn(offspring[k], parents[k], environment[MutationStrength])
      ensures old(Harmless()) ==> Harmless() && forall e :: e in entities ==> e.health <= 100.0 && 0.0 <= e.energy <= 100.0
    {
      survivors := Survive();
      parents, offspring := HandleReproduction();
      forall k | 0 <= k < |offspring| && Aggression in parents[k].parameters
        ensures parents[k].parameters[Aggression] >= 0.0 ==> offspring[k].parameters[Aggression] >= 0.0
      {
        InheritedAggression(offspring[k].parameters, parents[k].parameters, environment[MutationStrength]);
      }
    }

    /**
     * One pass of the `run_simulation` loop: the clock update, the epoch,
     * and the population report on the new list. The population becomes the
     * survivors followed by the newborns, as in `RunEpoch`.
     */
    method Epoch(t: nat) returns (survivors: seq<Entity>, offspring: seq<Entity>, report: RunSummary)
      requires Valid() && totalTimeSteps > 0
      modifies this`currentTime, this`count, this`environment, this`entities, this`totalEntities, rng, entities
      ensures Valid() && currentTime == t && count == old(count) + 1
      ensures entities == survivors + offspring
      ensures totalEntities == old(totalEntities) + |offspring|
      ensures forall e :: e in old(entities) ==> (e in survivors <==> e.status != Dead)
      ensures forall e :: e in survivors ==>
        e in old(entities) && old(e.status) != Dead && e.status != Dead && e.age == old(e.age) + 1
      ensures fresh(offspring) && forall e :: e in offspring ==> e.age == 0 && e.status == Alive
      ensures forall i :: 0 <= i < |entities| ==> entities[i] in old(entities) || fresh(entities[i])
      ensures forall e :: e in entities ==> e.status != Dead
      ensures totalEntities >= old(totalEntities)
      ensures report == RunSummary(totalEntities, |entities|, CountStatus(entities, Struggling), CountStatus(entities, Thriving))
      ensures old(Harmless()) ==> Harmless() && forall e :: e in entities ==> e.health <= 100.0 && 0.0 <= e.energy <= 100.0
    {
      currentTime := t;
      count := count + 1;
      var parents;
      survivors, parents, offspring := RunEpoch();
      report := RunSummary(totalEntities, |entities|, CountStatus(entities, Struggling), CountStatus(entities, Thriving));
    }

    /**
     * The loop of `run_simulation`: up to `total_time_steps` epochs,
     * stopping early once the population is empty. `history` holds each
     * epoch's population report in order: every epoch but the last left
     * someone alive, and the last report is that of the final population.
     */
    method Epochs() returns (history: seq<RunSummary>)
      requires Valid()
      modifies this, rng, entities
      ensures Valid()
      ensures |history| == count <= totalTimeSteps
      ensures count < totalTimeSteps ==> entities == []
      ensures forall k :: 0 <= k < |history| - 1 ==> history[k].finalLive > 0
      ensures totalTimeSteps > 0 ==> count > 0 && currentTime == count - 1
      ensures count > 0 ==>
        && (forall e :: e in entities ==> e.status != Dead)
        && history[count - 1] == RunSummary(totalEntities, |entities|, CountStatus(entities, Struggling), CountStatus(entities, Thriving))
      ensures totalEntities >= old(totalEntities)
      ensures old(Harmless()) ==> Harmless()
      ensures old(Harmless()) && count > 0 ==> forall e :: e in entities ==> e.health <= 100.0 && 0.0 <= e.energy <= 100.0
    {
      count := 0;
      history := [];
      var t := 0;
      ghost var harmless := Harmless();
      while t < totalTimeSteps
        invariant Valid() && t <= totalTimeSteps && count == t && |history| == t
        invariant forall i :: 0 <= i < |entities| ==> entities[i] in old(entities) || fresh(entities[i])
        invariant t > 0 ==> currentTime == t - 1 && forall e :: e in entities ==> e.status != Dead
        invariant t > 0 ==>
          history[t - 1] == RunSummary(totalEntities, |entities|, CountStatus(entities, Struggling), CountStatus(entities, Thriving))
        invariant forall r :: r in history ==> r.finalLive > 0
        invariant totalEntities >= old(totalEntities)
        invariant harmless ==> Harmless() && (t > 0 ==> forall e :: e in entities ==> e.health <= 100.0 && 0.0 <= e.energy <= 100.0)
        decreases totalTimeSteps - t
      {
        var _, _, report := Epoch(t);
        history := history + [report];
        t := t + 1;
        if |entities| == 0 {
          break;
        }
      }
    }

    /**
     * `run_simulation`: the epoch loop, then the arguments of
     * `update_totals`, taken from the last population report. They are
     * absent when no epoch ran: with 0 time steps the source's call to
     * `update_totals` fails, because `struggling_count` was never assigned.
     */
    method RunSimulation() returns (summary: Option<RunSummary>, history: seq<RunSummary>)
      requires Valid()
      modifies this, rng, entities
      ensures Valid()
      ensures count <= totalTimeSteps
      ensures count < totalTimeSteps ==> entities == []
      ensures |history| == count
      ensures forall k :: 0 <= k < |history| - 1 ==> history[k].finalLive > 0
      ensures |history| > 0 ==> summary == Some(history[|history| - 1])
      ensures totalTimeSteps > 0 ==> count > 0 && currentTime == count - 1
      ensures count > 0 ==> forall e :: e in entities ==> e.status != Dead
      ensures totalEntities >= old(totalEntities)
      ensures summary.None? <==> totalTimeSteps == 0
      ensures summary.Some? ==>
        && summary.value == RunSummary(totalEntities, |entities|, CountStatus(entities, Struggling), CountStatus(entities, Thriving))
        && summary.value.struggling + summary.value.thriving <= summary.value.finalLive
      ensures old(Harmless()) ==> Harmless()
      ensures old(Harmless()) && count > 0 ==> forall e :: e in entities ==> e.health <= 100.0 && 0.0 <= e.energy <= 100.0
    {
      history := Epochs();
      summary := if |history| == 0 then None else Some(history[|history| - 1]);
      if summary.Some? {
        CountsWithinPopulation(entities, Struggling, Thriving);
      }
    }
  }
}

=== FILE: vitals.dfy ===
/**
 * The per-epoch change of an entity's energy and health
 * (src/entity_utils.py). Both are pure: they read the fields of the entity
 * they need (its health or its energy, and its parameter bundle) and the
 * environment factors, missing factors taking the defaults of `dict.get`,
 * and they return a number.
 */
module Vitals {
  import opened Numbers
  import opened Entities
  import opened Environment

  /** Extra consumption when resources are scarce. */
  function ScarcityPenalty(resourceAvailability: real): (c: real)
    ensures resourceAvailability <= 1.0 ==> c >= 0.0
    ensures resourceAvailability >= 1.0 ==> c == 0.0
  {
    if resourceAvailability < 1.0 then (1.0 - resourceAvailability) * 5.0 else 0.0
  }

  /** Extra consumption of an entity whose health is below 50. */
  function SicknessPenalty(health: real): (c: real)
    ensures c >= 0.0
    ensures health >= 50.0 ==> c == 0.0
  {
    if health < 50.0 then (50.0 - health) * 0.1 else 0.0
  }

  /**
   * `calculate_energy_change`: start from the metabolism rate, add the
   * scarcity and sickness surcharges, and return the negated total.
   */
  function EnergyChange(health: real, p: map<Param, real>, env: map<Factor, real>): (d: real)
    requires MetabolismRate in p
    ensures d == -(p[MetabolismRate] + ScarcityPenalty(Lookup(env, ResourceAvailability, 1.0)) + SicknessPenalty(health))
    ensures p[MetabolismRate] >= 0.0 && Lookup(env, ResourceAvailability, 1.0) <= 1.0 ==> d <= 0.0
    ensures Lookup(env, ResourceAvailability, 1.0) == 1.0 && health >= 50.0 ==> d == -p[MetabolismRate]
  {
    var consumed := p[MetabolismRate];
    var resourceAvailability := Lookup(env, ResourceAvailability, 1.0);
    var consumed := if resourceAvailability < 1.0 then consumed + (1.0 - resourceAvailability) * 5.0 else consumed;
    var consumed := if health < 50.0 then consumed + (50.0 - health) * 0.1 else consumed;
    -consumed
  }

  /** Health gained from an energy surplus above 50, or lost to a deficit. */
  function EnergyHealthTerm(energy: real, p: map<Param, real>): (h: real)
    requires HealthRecoveryRate in p && HealthDecayRate in p
    ensures energy > 50.0 && p[HealthRecoveryRate] >= 0.0 ==> h >= 0.0
    ensures energy <= 50.0 && p[HealthDecayRate] >= 0.0 ==> h <= 0.0
    ensures energy == 50.0 ==> h == 0.0
  {
    if energy > 50.0 then
      assert p[HealthRecoveryRate] >= 0.0 ==> (energy - 50.0) * p[HealthRecoveryRate] >= 0.0;
      (energy - 50.0) * p[HealthRecoveryRate] * 0.1
    else -((50.0 - energy) * p[HealthDecayRate] * 0.1)
  }

  /** Damage from a temperature outside [10, 35], damped by resilience. */
  function TemperaturePenalty(temperature: real, resilience: real): (c: real)
    ensures resilience <= 1.0 ==> c >= 0.0
    ensures resilience == 1.0 || 10.0 <= temperature <= 35.0 ==> c == 0.0
  {
    if temperature < 10.0 || temperature > 35.0 then Abs(temperature - 22.5) * (1.0 - resilience) * 0.1
    else 0.0
  }

  /** Damage from pollution above 0.1, damped by resilience. */
  function PollutionPenalty(pollution: real, resilience: real): (c: real)
    ensures resilience <= 1.0 ==> c >= 0.0
    ensures resilience == 1.0 || pollution <= 0.1 ==> c == 0.0
  {
    if pollution > 0.1 then pollution * (1.0 - resilience) * 5.0 else 0.0
  }

  /**
   * `calculate_health_change`: the energy-driven term minus the
   * temperature and pollution penalties.
   */
  function HealthChange(energy: real, p: map<Param, real>, env: map<Factor, real>): (d: real)
    requires HealthRecoveryRate in p && HealthDecayRate in p && Resilience in p
    ensures d == EnergyHealthTerm(energy, p)
                 - TemperaturePenalty(Lookup(env, Temperature, 25.0), p[Resilience])
                 - PollutionPenalty(Lookup(env, Pollution, 0.0), p[Resilience])
    ensures p[Resilience] <= 1.0 ==> d <= EnergyHealthTerm(energy, p)
    ensures p[Resilience] == 1.0 ==> d == EnergyHealthTerm(energy, p)
    ensures Temperature !in env && Pollution !in env ==> d == EnergyHealthTerm(energy, p)
  {
    var change := 0.0;
    var change := if energy > 50.0 then change + (energy - 50.0) * p[HealthRecoveryRate] * 0.1
                  else change - (50.0 - energy) * p[HealthDecayRate] * 0.1;
    var temperature := Lookup(env, Temperature, 25.0);
    var pollution := Lookup(env, Pollution, 0.0);
    var change := if temperature < 10.0 || temperature > 35.0
                  then change - Abs(temperature - 22.5) * (1.0 - p[Resilience]) * 0.1
                  else change;
    if pollution > 0.1 then change - pollution * (1.0 - p[Resilience]) * 5.0 else change
  }
}
